=== FILE: README.md ===
# BWAPI auto-menu, modelled in Dafny

BWAPI injects itself into StarCraft: Brood War. While the game shows its
menus (the "glue" screens), BWAPI can drive them itself. On every menu
frame it reads the current screen and presses keys, selects dropdown
entries or queues lobby commands. This takes it from the main menu through
game creation or joining, into the lobby, and finally starts the game. The
behaviour is configured in the `auto_menu` section of the configuration
file and re-read at the end of every match (`loadAutoMenuData`).

This project models that engine (`GameMenu.cpp`):

- **Settings.** Module `Config` covers the settings read from the
  configuration store: the defaults, the enemy-race table with its
  `DEFAULT` fallback to slot 0, and the enemy count clamped to [0, 7].
- **Map pool.** Module `MapPool` covers:
  - normalising the map glob;
  - its directory;
  - the pool of accepted files, in listing order;
  - the `RANDOM` and `SEQUENCE` selection policies;
  - splitting a map path into its file name and directory.
- **Lobby counts.** Module `Lobby` counts the humans, the ready humans and
  the open slots.
- **Races.** Module `Races` covers:
  - resolving race tokens, including the composite `RANDOMTP`, `RANDOMTZ`
    and `RANDOMPZ`;
  - the race-change primitive, which writes the Create dialog directly and
    otherwise queues a lobby command unless the countdown is below 2.
- **Specification.** Module `MenuSpec` is the engine as a value:
  - its state (`Engine`), a reload, a map selection;
  - one function per screen handler and the whole poll `OnMenuFrame`, each
    returning the next state and the writes issued, in order (`Step`);
  - runs of polls (`Run`).
- **Imperative engine.** Module `GameMenu` is the engine as the host keeps
  it: class `AutoMenu` has the source's fields and updates them in place.
  Every poll and screen method, the map selection and the reload are proved
  against the function of the same step in `MenuSpec`. The pool, settings
  and enemy-race loops are proved against the `MapPool` and `Config`
  functions they compute. The two reset helpers of the reload state their
  new fields directly.
- **Properties.** Module `Properties` proves what holds over many polls:
  - an engine that is off, or has spent its retry budget, stays silent;
  - the retry count only grows and never passes 51;
  - a lobby without error dialogs starts the game at most once.

How the model stands in for things outside the engine:

- **Screens.** The screen the host shows is a `View`: the glue mode, which
  dialogs exist, the lobby's slot table, the dropdown values the handlers
  read, the countdown text, and the random draws of the frame. Each write
  the engine performs is an `Action`.
- **Host lookups.** The map classifier (`getFileType`), the race and
  game-type name lookups and the install path form a `Host` record.
- **Randomness.** Random numbers come in as parameters: `coins` holds one
  free draw per slot, the `rand() % 2 == 0` used when that slot's token is
  composite; `mapDraw` or `draw` is the draw for map selection.
- **Time.** The tick count is a natural number, `now`.

## Model

| member | source | states |
|---|---|---|
| Config.Clamp | bwapi/BWAPI/Source/BWAPI/GameMenu.cpp:105 | the result lies in [lo, hi]; it equals the input inside the range and the nearer bound outside it |
| Config.EnemyRacesUpTo | bwapi/BWAPI/Source/BWAPI/GameMenu.cpp:96-103 | k entries; entry i-1 is slot i's configured token, with "DEFAULT" replaced by slot 0's token |
| Config.EnemyRaces | bwapi/BWAPI/Source/BWAPI/GameMenu.cpp:95-103 | eight tokens; slot 0 is `enemy_race` (default "RANDOM"); every other slot is its own key, falling back to slot 0 when "DEFAULT" |
| Config.LoadSettings | bwapi/BWAPI/Source/BWAPI/GameMenu.cpp:24-111 | every reload yields eight enemy races and a count in [0, 7]; an unset count gives 1; the enemy fallback rule holds |
| Config.NoDefaultLeft | bwapi/BWAPI/Source/BWAPI/GameMenu.cpp:95-103 | a slot keeps "DEFAULT" only when slot 0 itself is "DEFAULT"; an unset slot key takes slot 0's token |
| Lobby.PlayerCount | bwapi/BWAPI/Source/BWAPI/GameMenu.cpp:138-147 | the number of human slots never exceeds the table size |
| Lobby.ReadyCount | bwapi/BWAPI/Source/BWAPI/GameMenu.cpp:148-157 | ready humans never outnumber humans |
| Lobby.OpenCount | bwapi/BWAPI/Source/BWAPI/GameMenu.cpp:158-167 | the number of open slots never exceeds the table size |
| Lobby.PlayersAndOpenFit | bwapi/BWAPI/Source/BWAPI/GameMenu.cpp:138-167 | humans plus open slots fit in the table: no slot is counted twice |
| Lobby.AllReadyMeansNoStragglers | bwapi/BWAPI/Source/BWAPI/GameMenu.cpp:148-157 | ready count equals player count if and only if every human slot has finished its download |
| Races.MenuRace | bwapi/BWAPI/Source/BWAPI/GameMenu.cpp:169-182 | a composite token resolves to one race of its pair, never to a sentinel; any other token goes to the name lookup |
| Races.SlotControl | bwapi/BWAPI/Source/BWAPI/GameMenu.cpp:472 | the slot index clamped to [0, 7]: kept when inside, 0 below, 7 above (the lobby's slot 8 becomes 7) |
| Races.SignedChar | bwapi/BWAPI/Source/BWAPI/GameMenu.cpp:492 | a text byte read as a signed char lies in [-128, 127], keeps its value below 0x80 and loses 256 from 0x80 up |
| Races.CountdownSignedness | bwapi/BWAPI/Source/BWAPI/GameMenu.cpp:491-493 | a countdown whose first byte is 0x80 or above, or from 1 to below '2', counts as below 2; one starting with a digit from '2' up does not, and one whose first byte is NUL (any character whose low byte is 0) is empty |
| Races.ChangeRace | bwapi/BWAPI/Source/BWAPI/GameMenu.cpp:463-497 | at most one write and none for a sentinel race; with Create up, a direct write exactly when the slot shows another race; otherwise a queued command exactly when Chat and its countdown are present and the countdown, its first byte read as a signed char, is not below 2 |
| Races.ChangeRaceIdempotent | bwapi/BWAPI/Source/BWAPI/GameMenu.cpp:474-476 | repeating a race change on the Create dialog it left behind writes nothing |
| MapPool.Normalise | bwapi/BWAPI/Source/BWAPI/GameMenu.cpp:33 | same length, no '/' left, every '/' became '\\' and every other character is kept |
| MapPool.NormaliseIdempotent | bwapi/BWAPI/Source/BWAPI/GameMenu.cpp:33 | normalising twice equals normalising once |
| MapPool.LastSeparator | bwapi/BWAPI/Source/BWAPI/GameMenu.cpp:50 | the position of a '\\', '/' or newline with none after it, or none at all |
| MapPool.MapDirectory | bwapi/BWAPI/Source/BWAPI/GameMenu.cpp:48-53 | the glob's prefix up to its last separator followed by '\\'; just "\\" when the glob has no separator |
| MapPool.PoolOf | bwapi/BWAPI/Source/BWAPI/GameMenu.cpp:56-74 | a name is in the pool exactly when a listed non-directory entry of that name is accepted by the classifier under the map directory |
| MapPool.PoolOfAppend | bwapi/BWAPI/Source/BWAPI/GameMenu.cpp:56-74 | the pool of a listing split in two is the first part's pool followed by the second's: accepted names keep listing order and duplicates |
| MapPool.PoolOfOne | bwapi/BWAPI/Source/BWAPI/GameMenu.cpp:66-70 | one listed entry pools its name exactly when it is accepted |
| MapPool.ChosenEntry | bwapi/BWAPI/Source/BWAPI/GameMenu.cpp:119-133 | a valid pool index: the draw modulo the size under RANDOM, the cursor (0 once it reaches the size) under SEQUENCE, 0 under any other policy |
| MapPool.NextCursor | bwapi/BWAPI/Source/BWAPI/GameMenu.cpp:127-132 | under SEQUENCE the cursor moves to one past the picked entry (1..size); otherwise it is unchanged |
| MapPool.SequenceWalk | bwapi/BWAPI/Source/BWAPI/GameMenu.cpp:127-134 | from a fresh cursor, the k-th SEQUENCE selection picks entry k mod size, so the pool is walked in order |
| MapPool.MapFileName | bwapi/BWAPI/Source/BWAPI/GameMenu.cpp:293-295 | the suffix after the last '/' or '\\', containing neither |
| MapPool.MapFileDir | bwapi/BWAPI/Source/BWAPI/GameMenu.cpp:297-298 | directory, separator and file name put back together give the path; a path without a separator keeps its whole text |
| MenuSpec.Initial | bwapi/BWAPI/Source/BWAPI/GameMenu.cpp:202-204 | before any reload the settings have their defaults, so the mode is "OFF" and the engine is inert |
| MenuSpec.ChooseNewRandomMap | bwapi/BWAPI/Source/BWAPI/GameMenu.cpp:117-136 | an empty pool changes nothing; otherwise only cursor and current map change, the map is directory + a pool entry, SEQUENCE and RANDOM pick as their policies say, and any other policy takes the first entry and keeps the cursor |
| MenuSpec.ReloadSetup | bwapi/BWAPI/Source/BWAPI/GameMenu.cpp:41-88 | the glob and the policy are recorded; a changed glob rebuilds directory and pool from the listing; an unchanged one keeps them |
| MenuSpec.Reload | bwapi/BWAPI/Source/BWAPI/GameMenu.cpp:24-111 | the settings become those read from the store |
| MenuSpec.ReloadEffect | bwapi/BWAPI/Source/BWAPI/GameMenu.cpp:20-116 | a reload rebuilds the map setup and changes no frame state; an unchanged glob and policy keep pool, cursor and current map; a change resets the selection and selects again |
| MenuSpec.ReloadMaps | bwapi/BWAPI/Source/BWAPI/GameMenu.cpp:31-91 | the map setup follows the reload rules and only maps, cursor and current map change |
| MenuSpec.ReloadStartsOver | bwapi/BWAPI/Source/BWAPI/GameMenu.cpp:76-91 | after a changing reload: no map from an empty pool, the first entry under SEQUENCE, the drawn entry under RANDOM |
| MenuSpec.EnemyRaceActions | bwapi/BWAPI/Source/BWAPI/GameMenu.cpp:276-278 | the enemy race writes never activate the start control |
| MenuSpec.EnemyRaceChange | bwapi/BWAPI/Source/BWAPI/GameMenu.cpp:278 | one enemy slot's race write never activates the start control |
| MenuSpec.EnemyRaceWritesResolved | bwapi/BWAPI/Source/BWAPI/GameMenu.cpp:276-278 | with Create up every enemy write sets a slot in 1..k to that slot's resolved race, and only when the slot shows another race and the race is no sentinel |
| MenuSpec.EnemyRacesWritten | bwapi/BWAPI/Source/BWAPI/GameMenu.cpp:276-278 | with Create up every enemy slot 1..k showing a race other than its resolved, non-sentinel race is written |
| MenuSpec.CloseSlotActions | bwapi/BWAPI/Source/BWAPI/GameMenu.cpp:280-286 | closing slots never activates the start control |
| MenuSpec.SlotClosingsNeeded | bwapi/BWAPI/Source/BWAPI/GameMenu.cpp:280-286 | only dropdowns 21+from..27 that are not at index 0 yet are set, and only to index 0 |
| MenuSpec.SlotsClosed | bwapi/BWAPI/Source/BWAPI/GameMenu.cpp:280-286 | with Create up every dropdown 21+from..27 not yet at index 0 is set to 0 |
| MenuSpec.CreateSetup | bwapi/BWAPI/Source/BWAPI/GameMenu.cpp:260-287 | setting up a playable map never activates the start control |
| MenuSpec.GameTypeActions | bwapi/BWAPI/Source/BWAPI/GameMenu.cpp:262-267 | at most one write, made exactly when Create is up, the lookup gives a real game type and the dropdown shows another; it selects that type in control 17 |
| MenuSpec.CreateSetupGameType | bwapi/BWAPI/Source/BWAPI/GameMenu.cpp:260-287 | with Create up the setup selects a dropdown value only for the game type, exactly when GameTypeActions does; outside single player it writes nothing else |
| MenuSpec.CreateSetupRaces | bwapi/BWAPI/Source/BWAPI/GameMenu.cpp:269-278 | in single player slot 0 gets the resolved own race and slots 1..count their resolved enemy races, each exactly when its control shows another non-sentinel race; no other slot's race is written |
| MenuSpec.CreateSetupClosing | bwapi/BWAPI/Source/BWAPI/GameMenu.cpp:279-286 | in single player exactly the slot dropdowns count..6 not yet closed are closed, and no other dropdown index is selected |
| MenuSpec.SetupIndexWrites | bwapi/BWAPI/Source/BWAPI/GameMenu.cpp:269-286 | in single player the dropdown index writes of the setup are exactly those of the slot closing |
| MenuSpec.RetryStep | bwapi/BWAPI/Source/BWAPI/GameMenu.cpp:318-323 | an error dialog after creating is dismissed, costs one retry and triggers a new selection; without one nothing changes |
| MenuSpec.CreateFrame | bwapi/BWAPI/Source/BWAPI/GameMenu.cpp:252-326 | the tick is recorded; without a current map nothing is written; the retry count grows exactly on an error dialog with a map; no start |
| MenuSpec.CreateSetupFor | bwapi/BWAPI/Source/BWAPI/GameMenu.cpp:258-260 | a map that is not playable gets no setup at all, and the setup never starts the game |
| MenuSpec.RewriteFor | bwapi/BWAPI/Source/BWAPI/GameMenu.cpp:289-315 | the map list is rewritten for the full path under the install directory |
| MenuSpec.RewriteSplitsPath | bwapi/BWAPI/Source/BWAPI/GameMenu.cpp:291-298 | the rewrite's file name and directory put back together, with the separator between them, give the full path; without a separator the directory is the whole path |
| MenuSpec.CreateFrameWrites | bwapi/BWAPI/Source/BWAPI/GameMenu.cpp:289-324 | with a current map the map list is pointed at it, an error dialog is dismissed, and the last write creates the game |
| MenuSpec.ConnectFrame | bwapi/BWAPI/Source/BWAPI/GameMenu.cpp:327-338 | the join wait is reset; outside Battle.net the configured LAN mode is selected exactly when it is visible and listed; the connect key is pressed exactly for Battle.net or such a LAN mode, after the selection; nothing else is written |
| MenuSpec.GameSelectFrame | bwapi/BWAPI/Source/BWAPI/GameMenu.cpp:339-366 | the browser changes only the join wait, the host flag and the current map |
| MenuSpec.SessionChoice | bwapi/BWAPI/Source/BWAPI/GameMenu.cpp:353-364 | once the wait is over the join wait restarts now, and only the host flag and the current map change besides |
| MenuSpec.GameSelectEffect | bwapi/BWAPI/Source/BWAPI/GameMenu.cpp:339-366 | while the session is awaited no key is pressed and the wait start is kept; afterwards the host flag says whether nothing was joined, Create is pressed exactly when creating and hosting, OK otherwise, and joining clears the current map |
| MenuSpec.RaceStep | bwapi/BWAPI/Source/BWAPI/GameMenu.cpp:370-404 | a race attempt changes only the attempt timer and the confirmed flag, and never starts the game |
| MenuSpec.CompositeRaceConfirmed | bwapi/BWAPI/Source/BWAPI/GameMenu.cpp:385-402 | with a composite token and either race of its pair showing, an attempt inside the gate sets the confirmed flag and asks for no change, whatever the draw |
| MenuSpec.RaceStepEffect | bwapi/BWAPI/Source/BWAPI/GameMenu.cpp:370-404 | outside the gate nothing happens; inside it the attempt is timed, the confirmed flag is set exactly when an acceptable race shows, and a race change is requested exactly when it does not |
| MenuSpec.DismissStep | bwapi/BWAPI/Source/BWAPI/GameMenu.cpp:407-412 | a lobby error dialog is dismissed, clears the start flag and restarts the 2 s wait |
| MenuSpec.StartStep | bwapi/BWAPI/Source/BWAPI/GameMenu.cpp:414-431 | when the start conditions hold the start control is activated and the start flag set; otherwise nothing |
| MenuSpec.ChatFrame | bwapi/BWAPI/Source/BWAPI/GameMenu.cpp:367-432 | the lobby changes only the join wait (reset), the race and restart timers and the two sticky flags |
| MenuSpec.ChatStart | bwapi/BWAPI/Source/BWAPI/GameMenu.cpp:407-431 | the lobby starts the game at most once, exactly when no error dialog is up and the start conditions hold; the flag then records it |
| MenuSpec.ChatDismissal | bwapi/BWAPI/Source/BWAPI/GameMenu.cpp:407-412 | an error dialog is pressed away and restarts the wait; without one the wait keeps its start |
| MenuSpec.MainMenuActions | bwapi/BWAPI/Source/BWAPI/GameMenu.cpp:236-246 | nothing under the title splash; otherwise exactly one press of single player (3) or multiplayer (4), by the mode, when MainMenu is up, and at most one expansion press (7), exactly when its dialog is up; nothing else |
| MenuSpec.LoginActions | bwapi/BWAPI/Source/BWAPI/GameMenu.cpp:433-445 | with the name prompt up, type "BWAPI" into it and confirm; otherwise press Login's control 4, when that dialog is up |
| MenuSpec.SimpleScreenActions | bwapi/BWAPI/Source/BWAPI/GameMenu.cpp:236-459 | never a start; main menu and login as their handlers; campaign screens press Custom (10), score screens press continue (7) exactly when a restart is configured, briefings confirm (13) in ReadyZ or TerranRR; every other screen writes nothing |
| MenuSpec.Dispatch | bwapi/BWAPI/Source/BWAPI/GameMenu.cpp:233-460 | no screen changes the settings or the map setup |
| MenuSpec.DispatchEffect | bwapi/BWAPI/Source/BWAPI/GameMenu.cpp:233-460 | only the lobby can start; only the create screen moves the retry count, by one on an error dialog with a map; outside the lobby the sticky flags are untouched |
| MenuSpec.OnMenuFrame | bwapi/BWAPI/Source/BWAPI/GameMenu.cpp:185-461 | a poll keeps the settings and the map setup |
| MenuSpec.FrameEffect | bwapi/BWAPI/Source/BWAPI/GameMenu.cpp:185-461 | a poll leaves the game flag false; an inert engine writes nothing and keeps its state; the retry count grows by one exactly on an error dialog after creating; outside the lobby both sticky flags are cleared and nothing is started; in the lobby the poll is the lobby frame |
| MenuSpec.FrameStart | bwapi/BWAPI/Source/BWAPI/GameMenu.cpp:226-431 | a poll starts the game at most once, exactly when it is in the lobby without an error and allowed; the start flag is kept only in such a lobby |
| MenuSpec.LobbyFrameStart | bwapi/BWAPI/Source/BWAPI/GameMenu.cpp:367-431 | in the lobby a poll starts at most once, exactly when no error dialog is up and the start is allowed, and the flag records it |
| MenuSpec.OtherFrameStart | bwapi/BWAPI/Source/BWAPI/GameMenu.cpp:226-231 | outside the lobby a poll starts nothing and clears the start flag |
| MenuSpec.Run | bwapi/BWAPI/Source/BWAPI/GameMenu.cpp:185-461 | polls never change settings or maps |
| Properties.InertRunIsSilent | bwapi/BWAPI/Source/BWAPI/GameMenu.cpp:198-204 | an engine that is off or out of retries writes nothing over any run and changes only the game flag |
| Properties.RetryCountGrows | bwapi/BWAPI/Source/BWAPI/GameMenu.cpp:318-323 | the retry count never decreases and grows by at most one per poll |
| Properties.RetryBudget | bwapi/BWAPI/Source/BWAPI/GameMenu.cpp:198-200 | the retry count never passes 51, so at most 51 error dialogs are retried |
| Properties.StartAtMostOnce | bwapi/BWAPI/Source/BWAPI/GameMenu.cpp:414-431 | over a stay in the lobby without error dialogs the game is started at most once, and not at all once a start is recorded |
| GameMenu.AutoMenu.constructor | bwapi/BWAPI/Source/BWAPI/GameMenu.cpp:187-190 | a fresh engine is in the initial state: zero timers, default settings, inert |
| GameMenu.AutoMenu.ChooseNewRandomMap | bwapi/BWAPI/Source/BWAPI/GameMenu.cpp:117-136 | the fields afterwards are those of MenuSpec.ChooseNewRandomMap |
| GameMenu.AutoMenu.RebuildPool | bwapi/BWAPI/Source/BWAPI/GameMenu.cpp:56-74 | the loop leaves exactly the accepted listing names, in order |
| GameMenu.AutoMenu.LoadEnemyRaces | bwapi/BWAPI/Source/BWAPI/GameMenu.cpp:95-103 | a fresh eight-entry table equal to Config.EnemyRaces |
| GameMenu.AutoMenu.ResetMapString | bwapi/BWAPI/Source/BWAPI/GameMenu.cpp:41-77 | glob recorded, selection reset, directory derived from the glob, pool rebuilt from the listing |
| GameMenu.AutoMenu.ResetIteration | bwapi/BWAPI/Source/BWAPI/GameMenu.cpp:80-88 | policy recorded and selection reset |
| GameMenu.AutoMenu.ReloadMaps | bwapi/BWAPI/Source/BWAPI/GameMenu.cpp:31-91 | maps, cursor and current map afterwards are those of MenuSpec.ReloadMaps |
| GameMenu.AutoMenu.ReadSettings | bwapi/BWAPI/Source/BWAPI/GameMenu.cpp:24-111 | the settings equal Config.LoadSettings of the store |
| GameMenu.AutoMenu.LoadAutoMenuData | bwapi/BWAPI/Source/BWAPI/GameMenu.cpp:20-116 | settings, map setup, cursor and current map afterwards are those of MenuSpec.Reload of the state before, and the settings are valid; no other field may change |
| GameMenu.AutoMenu.SetUpCreate | bwapi/BWAPI/Source/BWAPI/GameMenu.cpp:260-287 | the writes are MenuSpec.CreateSetup |
| GameMenu.AutoMenu.SetUpRaces | bwapi/BWAPI/Source/BWAPI/GameMenu.cpp:273-278 | the own race and then the races of enemies 1..count, as MenuSpec.EnemyRaceActions |
| GameMenu.AutoMenu.CloseSlots | bwapi/BWAPI/Source/BWAPI/GameMenu.cpp:280-286 | the writes are MenuSpec.CloseSlotActions |
| GameMenu.AutoMenu.RetryOnError | bwapi/BWAPI/Source/BWAPI/GameMenu.cpp:318-323 | state and writes are those of MenuSpec.RetryStep |
| GameMenu.AutoMenu.CreateScreen | bwapi/BWAPI/Source/BWAPI/GameMenu.cpp:252-326 | state and writes are those of MenuSpec.CreateFrame |
| GameMenu.AutoMenu.ConnectScreen | bwapi/BWAPI/Source/BWAPI/GameMenu.cpp:327-338 | state and writes are those of MenuSpec.ConnectFrame |
| GameMenu.AutoMenu.GameSelectScreen | bwapi/BWAPI/Source/BWAPI/GameMenu.cpp:339-366 | state and writes are those of MenuSpec.GameSelectFrame |
| GameMenu.AutoMenu.ChooseSession | bwapi/BWAPI/Source/BWAPI/GameMenu.cpp:353-364 | state and writes are those of MenuSpec.SessionChoice |
| GameMenu.AutoMenu.RaceAttempt | bwapi/BWAPI/Source/BWAPI/GameMenu.cpp:370-404 | state and writes are those of MenuSpec.RaceStep |
| GameMenu.AutoMenu.DismissError | bwapi/BWAPI/Source/BWAPI/GameMenu.cpp:407-412 | state and writes are those of MenuSpec.DismissStep |
| GameMenu.AutoMenu.AutoStart | bwapi/BWAPI/Source/BWAPI/GameMenu.cpp:414-431 | state and writes are those of MenuSpec.StartStep |
| GameMenu.AutoMenu.ChatScreen | bwapi/BWAPI/Source/BWAPI/GameMenu.cpp:367-432 | state and writes are those of MenuSpec.ChatFrame |
| GameMenu.AutoMenu.DispatchScreen | bwapi/BWAPI/Source/BWAPI/GameMenu.cpp:233-460 | state and writes are those of MenuSpec.Dispatch |
| GameMenu.AutoMenu.MenuFrame | bwapi/BWAPI/Source/BWAPI/GameMenu.cpp:185-461 | state and writes are those of MenuSpec.OnMenuFrame, and the settings stay valid |

## Left out

- Directory enumeration (`FindFirstFileA`/`FindNextFileA`) is an input: the listing of the configured glob, as a sequence of entries. A glob that cannot be opened is the empty listing.
- `rand()` is replaced by given draws: `coins[k]` is one free draw for slot k, used only when slot k's token is composite, and `draw`/`mapDraw` is the map draw. The order in which the source consumes `rand()` values and their distribution are not modelled.
- The map draw is an unbounded natural number, while `rand()` returns at most 32767. For a pool of more than 32768 maps the model can pick entries the source never picks under RANDOM.
- The countdown text is taken as bytes: a character above 0xFF, which a C string cannot hold, is read by its low byte, both for the NUL test and for the signed comparison.
- The clock is read once per poll as `now`. The source calls `GetTickCount` several times within one frame (the join wait, the race attempt, the restart wait), so its readings can differ by the time the frame takes.
- `LoadConfigString`/`LoadConfigInt` and the configuration file are a store of already parsed values. How files, environment overrides and integer parsing work is not part of this model.
- `seed_override` and `speed_override` are also read during a reload. They are not part of the auto-menu, and their types are not part of this model.
- The debug-only `pause_dbg` setting and the `IsDebuggerPresent` wait are left out; they exist in debug builds only.
- Pushing the menu-frame event and `server.update()` are calls into the rest of the host, left out.
- `QUEUE_COMMAND` and `pressDialogKey` are recorded as actions; their delivery to the game is not modelled.
- `GetTickCount` is `now`, an unbounded natural number. The 32-bit wrap of `DWORD` timers after about 49 days is not modelled.
- The rewrite of every map-list entry (slot counts, names, path) and of the current map folder is one `RewriteMapList` action. It carries the file name, the full path and the directory. How the game's linked list is walked is not modelled.
- A dialog the source finds without checking (for example `MainMenu`, `RaceSelection`, `ConnSel`, `Login`, `End`, `Chat` for the start control) is treated as a no-op when absent, where the source would use the missing dialog without a check.
- The `Create` dialog's race controls (28 + slot) and slot dropdowns (21 + i) are observed through the view's maps and sequences, not looked up one by one.
- MenuSpec.AtLeast: the comparison of the unsigned ready count with a configured int follows the unsigned conversion: a negative bound is never reached.
- GameMenu.AutoMenu: the settings fields of the source (`autoMenuMode` through `autoMenuWaitPlayerTime`, `autoMenuEnemyRace` included) are kept as one `settings` record field that every reload replaces as a whole.
- GameMenu.AutoMenu.constructor: the engine's own constructor is not part of this model. The fresh engine uses empty strings, zero counters and false flags, with the default settings, like the zero-initialised static timers of `onMenuFrame`.
- MenuSpec.ChatFrame: its own contract states only what the lobby frame may change; its writes are stated by MenuSpec.ChatStart, MenuSpec.ChatDismissal and MenuSpec.RaceStepEffect.
- MenuSpec.RaceStep: its own contract states only what it may change; the rest is stated by MenuSpec.RaceStepEffect.
- MenuSpec.GameSelectFrame: its own contract states only what it may change; the rest is stated by MenuSpec.GameSelectEffect.
- MenuSpec.Dispatch: its own contract states only that settings and maps are kept; the rest is stated by MenuSpec.DispatchEffect.
- MenuSpec.OnMenuFrame: its own contract states only that settings and maps are kept; the rest is stated by MenuSpec.FrameEffect and MenuSpec.FrameStart.
- MenuSpec.Reload: its own contract states only the new settings; the rest is stated by MenuSpec.ReloadEffect.
- MenuSpec.EnemyRaceActions: its own contract states only that no start is issued; what it writes is stated by MenuSpec.EnemyRaceWritesResolved and MenuSpec.EnemyRacesWritten.
- MenuSpec.CloseSlotActions: its own contract states only that no start is issued; what it writes is stated by MenuSpec.SlotClosingsNeeded and MenuSpec.SlotsClosed.
- MenuSpec.CreateSetup: its own contract states only that no start is issued; what it writes is stated, with the Create dialog up, by MenuSpec.CreateSetupGameType, MenuSpec.CreateSetupRaces and MenuSpec.CreateSetupClosing.

=== FILE: config.dfy ===
/** The auto-menu settings derived from the configuration store on every
    reload (GameMenu.cpp, loadAutoMenuData). */
module Config {

  /** The configuration store, keyed by (section, key). String and integer
      values are resolved by the store itself; the model sees the result. */
  datatype ConfigStore = ConfigStore(strings: map<(string, string), string>, ints: map<(string, string), int>)

  const EmptyStore := ConfigStore(map[], map[])

  /** A configured string, or `dflt` when the key is not set. */
  function LoadString(cs: ConfigStore, section: string, key: string, dflt: string): string {
    if (section, key) in cs.strings then cs.strings[(section, key)] else dflt
  }

  /** A configured integer, or `dflt` when the key is not set. */
  function LoadInt(cs: ConfigStore, section: string, key: string, dflt: int): int {
    if (section, key) in cs.ints then cs.ints[(section, key)] else dflt
  }

  /** The value `x` limited to [lo, hi]. */
  function Clamp(x: int, lo: int, hi: int): (r: int)
    requires lo <= hi
    ensures lo <= r <= hi
    ensures lo <= x <= hi ==> r == x
    ensures x < lo ==> r == lo
    ensures hi < x ==> r == hi
  {
    if x < lo then lo else if hi < x then hi else x
  }

  /** The snapshot of user intent read at each reload. */
  datatype Settings = Settings(
    mode: string,            // auto_menu: OFF, SINGLE_PLAYER, LAN, BATTLE_NET, ...
    restartGame: string,     // auto_restart
    gameName: string,        // game: the session to join
    lanMode: string,         // lan_mode
    race: string,            // race token of the local player
    enemyRace: seq<string>,  // race token per slot; entry 0 is the default for the others
    enemyCount: int,         // enemy_count, clamped to [0, 7]
    gameType: string,        // game_type
    saveReplay: string,      // save_replay
    minPlayers: int,         // wait_for_min_players
    maxPlayers: int,         // wait_for_max_players
    waitTime: int            // wait_for_time, in milliseconds
  ) {
    /** The shape every reload produces. */
    predicate Valid() {
      |enemyRace| == 8 && 0 <= enemyCount <= 7
    }
  }

  const Section := "auto_menu"
  const DefaultToken := "DEFAULT"

  /** The keys of the per-slot enemy races 1..7. */
  const EnemyRaceKeys: seq<string> := ["enemy_race_1", "enemy_race_2", "enemy_race_3", "enemy_race_4",
                                        "enemy_race_5", "enemy_race_6", "enemy_race_7"]

  /** The configured race token of enemy slot `i` (1..7), which may be "DEFAULT". */
  function RawEnemyRace(cs: ConfigStore, i: nat): string
    requires 1 <= i < 8
  {
    LoadString(cs, Section, EnemyRaceKeys[i - 1], DefaultToken)
  }

  /** The race token of enemy slot 0, the default of the others. */
  function BaseEnemyRace(cs: ConfigStore): string {
    LoadString(cs, Section, "enemy_race", "RANDOM")
  }

  /** Token `raw` with "DEFAULT" replaced by the slot-0 token. */
  function Fallback(raw: string, base: string): string {
    if raw == DefaultToken then base else raw
  }

  /** Slot races 1..k of the enemy table, each falling back to slot 0. */
  function EnemyRacesUpTo(cs: ConfigStore, k: nat): (r: seq<string>)
    requires k <= 7
    ensures |r| == k
    ensures forall i :: 1 <= i <= k ==> r[i - 1] == Fallback(RawEnemyRace(cs, i), BaseEnemyRace(cs))
  {
    if k == 0 then [] else EnemyRacesUpTo(cs, k - 1) + [Fallback(RawEnemyRace(cs, k), BaseEnemyRace(cs))]
  }

  /** The eight enemy race tokens. */
  function EnemyRaces(cs: ConfigStore): (r: seq<string>)
    ensures |r| == 8 && r[0] == BaseEnemyRace(cs)
    ensures forall i :: 1 <= i < 8 ==>
              r[i] == if RawEnemyRace(cs, i) == DefaultToken then r[0] else RawEnemyRace(cs, i)
  {
    [BaseEnemyRace(cs)] + EnemyRacesUpTo(cs, 7)
  }

  /** The settings read from `cs`, with the source's default for every key. */
  function LoadSettings(cs: ConfigStore): (s: Settings)
    ensures s.Valid()
    ensures (Section, "enemy_count") !in cs.ints ==> s.enemyCount == 1
    ensures forall i :: 1 <= i < 8 ==>
              s.enemyRace[i] == if RawEnemyRace(cs, i) == DefaultToken then s.enemyRace[0] else RawEnemyRace(cs, i)
  {
    Settings(
      mode := LoadString(cs, Section, "auto_menu", "OFF"),
      restartGame := LoadString(cs, Section, "auto_restart", "OFF"),
      gameName := LoadString(cs, Section, "game", ""),
      lanMode := LoadString(cs, Section, "lan_mode", "Local Area Network (UDP)"),
      race := LoadString(cs, Section, "race", "RANDOM"),
      enemyRace := EnemyRaces(cs),
      enemyCount := Clamp(LoadInt(cs, Section, "enemy_count", 1), 0, 7),
      gameType := LoadString(cs, Section, "game_type", "MELEE"),
      saveReplay := LoadString(cs, Section, "save_replay", ""),
      minPlayers := LoadInt(cs, Section, "wait_for_min_players", 2),
      maxPlayers := LoadInt(cs, Section, "wait_for_max_players", 8),
      waitTime := LoadInt(cs, Section, "wait_for_time", 30000))
  }

  /** No enemy slot is left with the "DEFAULT" token unless slot 0's own
      token is "DEFAULT"; slot 0's token is used by every slot left at default. */
  lemma {:induction false} NoDefaultLeft(cs: ConfigStore, i: nat)
    requires 1 <= i < 8
    ensures LoadSettings(cs).enemyRace[i] == DefaultToken ==> BaseEnemyRace(cs) == DefaultToken
    ensures (Section, EnemyRaceKeys[i - 1]) !in cs.strings ==> LoadSettings(cs).enemyRace[i] == BaseEnemyRace(cs)
  {
    var s := LoadSettings(cs);
    assert s.enemyRace == EnemyRaces(cs);
  }
}

=== FILE: gamemenu.dfy ===
/** The auto-menu engine as the host keeps it: an object whose fields the
    reload and every menu poll update in place (GameMenu.cpp,
    loadAutoMenuData, chooseNewRandomMap, onMenuFrame). The poll, screen,
    selection and reload methods are proved against the function of the same
    step in module MenuSpec; the loops of the reload against the MapPool and
    Config functions they compute. */
module GameMenu {
  import opened Types
  import opened Config
  import opened MapPool
  import opened Lobby
  import opened Races
  import opened MenuSpec

  /** One step of closing the slots in order: the writes so far, then slot
      `i`'s, then the rest make up the whole. */
  lemma CloseSlotsStep(v: View, from: nat, i: nat, acts: seq<Action>)
    requires WellFormed(v) && Create in v.dialogs && from <= i < 7
    requires acts + CloseSlotActions(v, i) == CloseSlotActions(v, from)
    ensures (acts + (if v.slotSelection[i] != 0 then [SelectIndex(Create, 21 + i, 0)] else []))
            + CloseSlotActions(v, i + 1) == CloseSlotActions(v, from)
  {
    var close := if v.slotSelection[i] != 0 then [SelectIndex(Create, 21 + i, 0)] else [];
    var rest := CloseSlotActions(v, i + 1);
    assert CloseSlotActions(v, i) == close + rest;
    AppendAssoc(acts, close, rest);
  }

  class AutoMenu {
    /** The host's lookups: map classifier, race and game-type names, install path. */
    const host: Host

    /** The auto-menu settings (autoMenuMode through autoMenuWaitPlayerTime),
        replaced as a whole by every reload. */
    var settings: Settings

    // the map pool and the selection
    var lastAutoMapString: string
    var autoMapIteration: string
    var autoMapPool: seq<string>
    var autoMenuMapPath: string
    var lastAutoMapEntry: nat
    var lastMapGen: string

    // the state kept between polls
    var inGame: bool
    var createdTimer: nat
    var waitJoinTimer: nat
    var waitSelRaceTimer: nat
    var waitRestartTimer: nat
    var actRaceSel: bool
    var actStartedGame: bool
    var isHost: bool
    var autoMapTryCount: nat

    /** The map setup as a value. */
    function Maps(): MapSetup
      reads this`lastAutoMapString, this`autoMapIteration, this`autoMapPool, this`autoMenuMapPath
    {
      MapSetup(lastAutoMapString, autoMapIteration, autoMapPool, autoMenuMapPath)
    }

    /** The whole engine state as a value. */
    function State(): Engine
      reads this
    {
      Engine(settings, Maps(), lastAutoMapEntry, lastMapGen, inGame, createdTimer, waitJoinTimer,
             waitSelRaceTimer, waitRestartTimer, actRaceSel, actStartedGame, isHost, autoMapTryCount)
    }

    /** Eight enemy race entries and an enemy count in [0, 7]. */
    predicate Valid()
      reads this
    {
      settings.Valid()
    }

    /** A fresh engine: no settings read yet, so auto-menu is off. */
    constructor (host: Host)
      ensures this.host == host && Valid() && State() == Initial()
    {
      this.host := host;
      settings := LoadSettings(EmptyStore);
      lastAutoMapString, autoMapIteration, autoMapPool, autoMenuMapPath := "", "", [], "";
      lastAutoMapEntry, lastMapGen := 0, "";
      inGame := false;
      createdTimer, waitJoinTimer, waitSelRaceTimer, waitRestartTimer := 0, 0, 0, 0;
      actRaceSel, actStartedGame, isHost := false, false, false;
      autoMapTryCount := 0;
    }

    /** A new map selection from the pool (see MenuSpec.ChooseNewRandomMap). */
    method ChooseNewRandomMap(draw: nat)
      modifies this`lastAutoMapEntry, this`lastMapGen
      ensures State() == MenuSpec.ChooseNewRandomMap(old(State()), draw)
    {
      if |autoMapPool| > 0 {
        var chosenEntry := 0;
        if autoMapIteration == "RANDOM" {
          chosenEntry := draw % |autoMapPool|;
        } else if autoMapIteration == "SEQUENCE" {
          if lastAutoMapEntry >= |autoMapPool| {
            lastAutoMapEntry := 0;
          }
          chosenEntry := lastAutoMapEntry;
          lastAutoMapEntry := lastAutoMapEntry + 1;
        }
        lastMapGen := autoMenuMapPath + autoMapPool[chosenEntry];
      }
    }

    /** Rebuilds the pool from `listing` under directory `dir`, keeping the
        accepted names in listing order. */
    method RebuildPool(listing: seq<FileEntry>, dir: string)
      modifies this`autoMapPool
      ensures autoMapPool == PoolOf(listing, dir, host.fileType)
    {
      autoMapPool := [];
      var i := 0;
      while i < |listing|
        invariant 0 <= i <= |listing|
        invariant autoMapPool == PoolOf(listing[..i], dir, host.fileType)
      {
        assert listing[..i + 1][..i] == listing[..i];
        if !listing[i].isDirectory {
          if host.fileType(dir + listing[i].name) != 0 {
            autoMapPool := autoMapPool + [listing[i].name];
          }
        }
        i := i + 1;
      }
      assert listing[..i] == listing;
    }

    /** The enemy race table: entry 0 from its own key, entries 1..7 from
        theirs, each falling back to entry 0 when set to "DEFAULT". */
    method LoadEnemyRaces(cs: ConfigStore) returns (races: array<string>)
      ensures fresh(races)
      ensures races[..] == EnemyRaces(cs)
    {
      ghost var target := EnemyRaces(cs);
      races := new string[8];
      races[0] := LoadString(cs, Section, "enemy_race", "RANDOM");
      var i := 1;
      while i < 8
        modifies races
        invariant 1 <= i <= 8
        invariant forall j :: 0 <= j < i ==> races[j] == target[j]
      {
        races[i] := LoadString(cs, Section, EnemyRaceKeys[i - 1], DefaultToken);
        if races[i] == DefaultToken {
          races[i] := races[0];
        }
        i := i + 1;
      }
    }

    /** A changed map glob: the selection is reset and the directory and
        the pool are derived afresh from the glob and `listing`. */
    method ResetMapString(cfgMap: string, listing: seq<FileEntry>)
      modifies this`lastAutoMapString, this`lastAutoMapEntry, this`lastMapGen, this`autoMenuMapPath, this`autoMapPool
      ensures lastAutoMapString == cfgMap && lastAutoMapEntry == 0 && lastMapGen == ""
      ensures autoMenuMapPath == MapDirectory(cfgMap)
      ensures autoMapPool == PoolOf(listing, autoMenuMapPath, host.fileType)
    {
      lastAutoMapString := cfgMap;
      lastAutoMapEntry := 0;
      lastMapGen := "";
      autoMenuMapPath := "";
      var tmp := LastSeparator(cfgMap);
      if tmp.Some? {
        autoMenuMapPath := cfgMap[..tmp.value];
      }
      autoMenuMapPath := autoMenuMapPath + "\\";
      assert autoMenuMapPath == MapDirectory(cfgMap);
      RebuildPool(listing, autoMenuMapPath);
    }

    /** A changed iteration policy: the selection is reset. */
    method ResetIteration(newMapIteration: string)
      modifies this`autoMapIteration, this`lastAutoMapEntry, this`lastMapGen
      ensures autoMapIteration == newMapIteration && lastAutoMapEntry == 0 && lastMapGen == ""
    {
      autoMapIteration := newMapIteration;
      lastAutoMapEntry := 0;
      lastMapGen := "";
    }

    /** The map part of a reload (see MenuSpec.ReloadMaps): a changed glob
        resets the selection and rebuilds directory and pool, a changed
        policy resets the selection, and either selects again. */
    method ReloadMaps(cs: ConfigStore, listing: seq<FileEntry>, draw: nat)
      modifies this`lastAutoMapString, this`lastAutoMapEntry, this`lastMapGen, this`autoMenuMapPath, this`autoMapPool,
               this`autoMapIteration
      ensures var r := MenuSpec.ReloadMaps(old(State()), host, ConfiguredGlob(cs), ConfiguredIteration(cs), listing, draw);
              Maps() == r.maps && lastAutoMapEntry == r.lastAutoMapEntry && lastMapGen == r.lastMapGen
    {
      var cfgMap := ConfiguredGlob(cs);
      var mapChanged := false;
      if lastAutoMapString != cfgMap {
        ResetMapString(cfgMap, listing);
        mapChanged := true;
      }

      var newMapIteration := LoadString(cs, Section, "mapiteration", "RANDOM");
      if autoMapIteration != newMapIteration {
        ResetIteration(newMapIteration);
        mapChanged := true;
      }
      assert Maps() == ReloadSetup(old(Maps()), host, cfgMap, newMapIteration, listing);

      if mapChanged {
        ChooseNewRandomMap(draw);
      }
    }

    /** The settings read afresh from `cs`, with the default of every key. */
    method ReadSettings(cs: ConfigStore) returns (r: Settings)
      ensures r == LoadSettings(cs)
    {
      var mode := LoadString(cs, Section, "auto_menu", "OFF");
      var restartGame := LoadString(cs, Section, "auto_restart", "OFF");
      var gameName := LoadString(cs, Section, "game", "");
      var lanMode := LoadString(cs, Section, "lan_mode", "Local Area Network (UDP)");
      var race := LoadString(cs, Section, "race", "RANDOM");
      var enemyRace := LoadEnemyRaces(cs);
      var enemyCount := Clamp(LoadInt(cs, Section, "enemy_count", 1), 0, 7);
      var gameType := LoadString(cs, Section, "game_type", "MELEE");
      var saveReplay := LoadString(cs, Section, "save_replay", "");
      var minPlayers := LoadInt(cs, Section, "wait_for_min_players", 2);
      var maxPlayers := LoadInt(cs, Section, "wait_for_max_players", 8);
      var waitTime := LoadInt(cs, Section, "wait_for_time", 30000);
      r := Settings(mode, restartGame, gameName, lanMode, race, enemyRace[..], enemyCount,
                    gameType, saveReplay, minPlayers, maxPlayers, waitTime);
    }

    /** A reload of the configuration (see MenuSpec.Reload). `listing` is what
        enumerating the configured glob yields, `draw` the random number a
        new selection uses. The map part reads no setting, so it is done
        first and the settings are replaced after it. */
    method LoadAutoMenuData(cs: ConfigStore, listing: seq<FileEntry>, draw: nat)
      modifies this`settings, this`lastAutoMapString, this`autoMapIteration, this`autoMapPool, this`autoMenuMapPath,
               this`lastAutoMapEntry, this`lastMapGen
      ensures Valid()
      ensures var r := Reload(old(State()), host, cs, listing, draw);
              settings == r.cfg && Maps() == r.maps && lastAutoMapEntry == r.lastAutoMapEntry && lastMapGen == r.lastMapGen
    {
      ReloadMaps(cs, listing, draw);
      settings := ReadSettings(cs);
    }

    // ------------------------------------------------------------- screens

    /** Create screen, playable map: select the game type, and in single
        player set every race and close the slots beyond the enemies. */
    method SetUpCreate(v: View) returns (acts: seq<Action>)
      requires settings.Valid() && WellFormed(v)
      ensures acts == CreateSetup(settings, host, v)
    {
      var gt := host.gameTypeOf(settings.gameType);
      acts := [];
      if Create in v.dialogs && gt.GameTypeValue? && v.gameTypeValue != gt.id {
        acts := [SelectValue(Create, 17, gt.id)];
      }
      assert acts == GameTypeActions(settings, host, v);
      if settings.mode == "SINGLE_PLAYER" {
        var races := SetUpRaces(v);
        var closing := CloseSlots(v);
        acts := acts + (races + closing);
      }
    }

    /** Single player: the own race, then the races of enemies 1..count. */
    method SetUpRaces(v: View) returns (acts: seq<Action>)
      requires settings.Valid() && WellFormed(v)
      ensures acts == ChangeRace(v, 0, MenuRace(settings.race, v.coins[0], host.raceOf))
                      + EnemyRaceActions(settings, host, v, settings.enemyCount)
    {
      var cfg := settings;
      var enemies := [];
      var i := 1;
      while i <= cfg.enemyCount
        invariant 1 <= i <= cfg.enemyCount + 1
        invariant enemies == EnemyRaceActions(cfg, host, v, i - 1)
      {
        enemies := enemies + EnemyRaceChange(cfg, host, v, i);
        i := i + 1;
      }
      acts := ChangeRace(v, 0, MenuRace(cfg.race, v.coins[0], host.raceOf)) + enemies;
    }

    /** Single player: close every slot dropdown from the enemy count to 6
        that is not closed yet. */
    method CloseSlots(v: View) returns (acts: seq<Action>)
      requires settings.Valid() && WellFormed(v)
      ensures acts == CloseSlotActions(v, settings.enemyCount)
    {
      var from := settings.enemyCount;
      acts := [];
      if Create in v.dialogs {
        var i := from;
        while i < 7
          invariant from <= i <= 7
          invariant acts + CloseSlotActions(v, i) == CloseSlotActions(v, from)
        {
          var close := if v.slotSelection[i] != 0 then [SelectIndex(Create, 21 + i, 0)] else [];
          CloseSlotsStep(v, from, i, acts);
          acts := acts + close;
          i := i + 1;
        }
      }
    }

    /** An error dialog after creating (see MenuSpec.RetryStep). */
    method RetryOnError(v: View) returns (acts: seq<Action>)
      modifies this`lastAutoMapEntry, this`lastMapGen, this`autoMapTryCount
      ensures Step(State(), acts) == RetryStep(old(State()), v)
    {
      acts := [];
      if GluPOk in v.dialogs {
        ChooseNewRandomMap(v.mapDraw);
        autoMapTryCount := autoMapTryCount + 1;
        acts := [Press(GluPOk, 1)];
      }
    }

    /** Create screen (see MenuSpec.CreateFrame). */
    method CreateScreen(v: View, now: nat) returns (acts: seq<Action>)
      requires settings.Valid() && WellFormed(v)
      modifies this`createdTimer, this`lastAutoMapEntry, this`lastMapGen, this`autoMapTryCount
      ensures Step(State(), acts) == CreateFrame(old(State()), host, v, now)
    {
      createdTimer := now;
      acts := [];
      if lastMapGen != "" {
        if host.fileType(lastMapGen) == 1 {
          acts := SetUpCreate(v);
        }
        var mapFilePath := host.installPath + lastMapGen;
        acts := acts + [RewriteMapList(MapFileName(mapFilePath), mapFilePath, MapFileDir(mapFilePath))];
        var retry := RetryOnError(v);
        acts := acts + retry + PressIn(v, Create, 12);
      }
    }

    /** Connect screen (see MenuSpec.ConnectFrame). */
    method ConnectScreen(v: View) returns (acts: seq<Action>)
      modifies this`waitJoinTimer
      ensures Step(State(), acts) == ConnectFrame(old(State()), v)
    {
      acts := [];
      if settings.mode == "BATTLE_NET" {
        acts := PressIn(v, ConnSel, 9);
      } else if ConnSel in v.dialogs && v.lanVisible && v.lanListed {
        acts := [SelectString(ConnSel, 5, settings.lanMode), Press(ConnSel, 9)];
      }
      waitJoinTimer := 0;
    }

    /** Game browser (see MenuSpec.GameSelectFrame). */
    method GameSelectScreen(v: View, now: nat) returns (acts: seq<Action>)
      modifies this`waitJoinTimer, this`isHost, this`lastMapGen
      ensures Step(State(), acts) == GameSelectFrame(old(State()), v, now)
    {
      if waitJoinTimer == 0 {
        waitJoinTimer := now;
      }
      acts := [];
      if GameSel !in v.dialogs {
        return;
      }
      if settings.gameName != "" {
        if v.gameListed {
          acts := [SelectString(GameSel, 5, settings.gameName)];
        } else if waitJoinTimer + 3000 * (v.instance + 1) > now {
          return;
        }
      }
      var choice := ChooseSession(v, now);
      acts := acts + choice;
    }

    /** The browser wait is over (see MenuSpec.SessionChoice). */
    method ChooseSession(v: View, now: nat) returns (acts: seq<Action>)
      modifies this`waitJoinTimer, this`isHost, this`lastMapGen
      ensures Step(State(), acts) == SessionChoice(old(State()), v, now)
    {
      waitJoinTimer := now;
      var isJoining := settings.gameName != "";
      acts := [];
      if isJoining && v.gameListed {
        acts := [SelectString(GameSel, 5, settings.gameName)];
      }
      isHost := !(isJoining && v.gameListed);
      if autoMenuMapPath != "" && isHost {
        acts := acts + [Press(GameSel, 15)];
      } else {
        lastMapGen := "";
        acts := acts + [Press(GameSel, 13)];
      }
    }

    /** Lobby race attempt (see MenuSpec.RaceStep). */
    method RaceAttempt(v: View, now: nat) returns (acts: seq<Action>)
      requires WellFormed(v)
      modifies this`waitSelRaceTimer, this`actRaceSel
      ensures Step(State(), acts) == RaceStep(old(State()), host, v, now)
    {
      acts := [];
      if !actRaceSel && Chat in v.dialogs && 0 <= v.currentPlayer < 8 && waitSelRaceTimer + 300 < now {
        waitSelRaceTimer := now;
        var playerRace := MenuRace(settings.race, v.coins[0], host.raceOf);
        if !IsSentinel(playerRace) {
          var currentRace := v.lobby[v.currentPlayer].race;
          if RaceConfirmed(settings.race, currentRace, playerRace) {
            actRaceSel := true;
          }
          if !actRaceSel {
            acts := ChangeRace(v, 8, playerRace);
          }
        }
      }
    }

    /** Lobby error dialog (see MenuSpec.DismissStep). */
    method DismissError(v: View, now: nat) returns (acts: seq<Action>)
      modifies this`actStartedGame, this`waitRestartTimer
      ensures Step(State(), acts) == DismissStep(old(State()), v, now)
    {
      acts := [];
      if GluPOk in v.dialogs {
        acts := [Press(GluPOk, 1)];
        actStartedGame := false;
        waitRestartTimer := now;
      }
    }

    /** Lobby auto-start (see MenuSpec.StartStep). */
    method AutoStart(v: View, now: nat) returns (acts: seq<Action>)
      requires WellFormed(v)
      modifies this`actStartedGame
      ensures Step(State(), acts) == StartStep(old(State()), v, now)
    {
      acts := [];
      var ready := ReadyCount(v.lobby);
      if autoMenuMapPath != "" && waitRestartTimer + 2000 < now && !actStartedGame && isHost &&
         ready > 0 && ready == PlayerCount(v.lobby) &&
         (AtLeast(ready, settings.minPlayers) || OpenCount(v.lobby) == 0)
      {
        if AtLeast(ready, settings.maxPlayers) || OpenCount(v.lobby) == 0 || now > createdTimer + settings.waitTime {
          if Chat in v.dialogs && !v.startDisabled {
            actStartedGame := true;
            acts := [ActivateStart];
          }
        }
      }
    }

    /** Lobby screen (see MenuSpec.ChatFrame). */
    method ChatScreen(v: View, now: nat) returns (acts: seq<Action>)
      requires WellFormed(v)
      modifies this`waitJoinTimer, this`waitSelRaceTimer, this`waitRestartTimer, this`actRaceSel, this`actStartedGame
      ensures Step(State(), acts) == ChatFrame(old(State()), host, v, now)
    {
      waitJoinTimer := 0;
      acts := RaceAttempt(v, now);
      var dismiss := DismissError(v, now);
      var start := AutoStart(v, now);
      acts := acts + dismiss + start;
    }

    /** The screen dispatch (see MenuSpec.Dispatch). */
    method DispatchScreen(v: View, now: nat) returns (acts: seq<Action>)
      requires settings.Valid() && WellFormed(v)
      modifies this
      ensures Step(State(), acts) == Dispatch(old(State()), host, v, now)
    {
      if v.menu == GlueChat {
        acts := ChatScreen(v, now);
      } else if IsCreateScreen(v.menu) {
        acts := CreateScreen(v, now);
      } else if v.menu == GlueConnect {
        acts := ConnectScreen(v);
      } else if v.menu == GlueGameSelect {
        acts := GameSelectScreen(v, now);
      } else {
        acts := SimpleScreenActions(State(), v);
      }
    }

    /** One poll of the menu (see MenuSpec.OnMenuFrame): the guards, the
        sticky-flag reset outside the lobby, then the current screen. */
    method MenuFrame(v: View, now: nat) returns (acts: seq<Action>)
      requires Valid() && WellFormed(v)
      modifies this
      ensures Valid()
      ensures Step(State(), acts) == OnMenuFrame(old(State()), host, v, now)
    {
      inGame := false;
      if autoMapTryCount > RetryCeiling {
        return [];
      }
      if settings.mode == "" || settings.mode == "OFF" {
        return [];
      }
      if v.menu != GlueChat {
        actRaceSel := false;
        actStartedGame := false;
      }
      acts := DispatchScreen(v, now);
    }
  }
}

=== FILE: lobby.dfy ===
/** Counters over the lobby's playable slot table (GameMenu.cpp,
    getLobbyPlayerCount, getLobbyPlayerReadyCount, getLobbyOpenCount). */
module Lobby {
  import opened Types

  /** A human player has taken the slot. */
  predicate IsHuman(s: Slot) { s.kind == Player }

  /** A human player whose download has completed. */
  predicate IsReady(s: Slot) { s.kind == Player && s.download >= 100 }

  /** A slot still open to a human. */
  predicate IsOpen(s: Slot) { s.kind == EitherPreferHuman }

  /** Number of slots held by human players. */
  function PlayerCount(slots: seq<Slot>): (r: nat)
    ensures r <= |slots|
  {
    if slots == [] then 0 else (if IsHuman(slots[0]) then 1 else 0) + PlayerCount(slots[1..])
  }

  /** Number of human players that are ready; never more than the human players. */
  function ReadyCount(slots: seq<Slot>): (r: nat)
    ensures r <= PlayerCount(slots) <= |slots|
  {
    if slots == [] then 0 else (if IsReady(slots[0]) then 1 else 0) + ReadyCount(slots[1..])
  }

  /** Number of slots open to a human. */
  function OpenCount(slots: seq<Slot>): (r: nat)
    ensures r <= |slots|
  {
    if slots == [] then 0 else (if IsOpen(slots[0]) then 1 else 0) + OpenCount(slots[1..])
  }

  /** A slot is never both human and open, so the two counts share the table. */
  lemma {:induction false} PlayersAndOpenFit(slots: seq<Slot>)
    ensures PlayerCount(slots) + OpenCount(slots) <= |slots|
  {
    if slots != [] {
      PlayersAndOpenFit(slots[1..]);
    }
  }

  /** "As many ready players as players" means no human is still downloading. */
  lemma {:induction false} AllReadyMeansNoStragglers(slots: seq<Slot>)
    ensures ReadyCount(slots) == PlayerCount(slots) <==>
            forall i :: 0 <= i < |slots| && IsHuman(slots[i]) ==> IsReady(slots[i])
  {
    if slots != [] {
      AllReadyMeansNoStragglers(slots[1..]);
      if ReadyCount(slots) == PlayerCount(slots) {
        forall i | 0 <= i < |slots| && IsHuman(slots[i]) ensures IsReady(slots[i]) {
          if i > 0 {
            assert slots[1..][i - 1] == slots[i];
          }
        }
      } else {
        if !IsReady(slots[0]) && IsHuman(slots[0]) {
        } else {
          var j :| 0 <= j < |slots[1..]| && IsHuman(slots[1..][j]) && !IsReady(slots[1..][j]);
          assert slots[j + 1] == slots[1..][j];
        }
      }
    }
  }
}

=== FILE: mappool.dfy ===
/** The candidate map pool: normalising the configured glob, deriving its
    directory, filtering the directory listing and picking an entry
    (GameMenu.cpp, loadAutoMenuData and chooseNewRandomMap). */
module MapPool {
  import opened Types

  /** The configured map glob with every '/' replaced by '\\'. */
  function Normalise(s: string): (r: string)
    ensures |r| == |s| && '/' !in r
    ensures forall i :: 0 <= i < |s| && s[i] != '/' ==> r[i] == s[i]
    ensures forall i :: 0 <= i < |s| && s[i] == '/' ==> r[i] == '\\'
  {
    if s == [] then []
    else [if s[0] == '/' then '\\' else s[0]] + Normalise(s[1..])
  }

  /** Normalising twice changes nothing more. */
  lemma NormaliseIdempotent(s: string)
    ensures Normalise(Normalise(s)) == Normalise(s)
  {
    var n := Normalise(s);
    assert forall i :: 0 <= i < |n| ==> n[i] != '/';
  }

  /** The characters the directory is cut at: '\\', '/' and newline. */
  predicate IsSeparator(c: char) {
    c == '\\' || c == '/' || c == '\n'
  }

  /** The position of the last separator in `s`, if any. */
  function LastSeparator(s: string): (r: Option<nat>)
    ensures r.None? ==> forall i :: 0 <= i < |s| ==> !IsSeparator(s[i])
    ensures r.Some? ==> r.value < |s| && IsSeparator(s[r.value]) &&
                        forall j :: r.value < j < |s| ==> !IsSeparator(s[j])
  {
    if s == [] then None
    else if IsSeparator(s[|s| - 1]) then Some(|s| - 1)
    else LastSeparator(s[..|s| - 1])
  }

  /** The directory of the configured glob: everything before its last
      separator (nothing when it has none), followed by '\\'. */
  function MapDirectory(glob: string): (dir: string)
    ensures |dir| >= 1 && dir[|dir| - 1] == '\\'
    ensures |dir| - 1 <= |glob| && dir[..|dir| - 1] == glob[..|dir| - 1]
    ensures (exists i :: 0 <= i < |glob| && IsSeparator(glob[i])) ==>
              |dir| - 1 < |glob| && IsSeparator(glob[|dir| - 1]) &&
              forall j :: |dir| - 1 < j < |glob| ==> !IsSeparator(glob[j])
    ensures (forall i :: 0 <= i < |glob| ==> !IsSeparator(glob[i])) ==> dir == "\\"
  {
    match LastSeparator(glob)
    case None => "\\"
    case Some(k) => glob[..k] + "\\"
  }

  /** One result of enumerating the glob: a file name and whether it is a directory. */
  datatype FileEntry = FileEntry(name: string, isDirectory: bool)

  /** A listed entry joins the pool: it is no directory and the file
      classifier accepts it under the map directory. */
  predicate Accepted(f: FileEntry, dir: string, fileType: string -> int) {
    !f.isDirectory && fileType(dir + f.name) != 0
  }

  /** The pool built from a listing: the accepted names, in listing order. */
  function PoolOf(listing: seq<FileEntry>, dir: string, fileType: string -> int): (pool: seq<string>)
    ensures |pool| <= |listing|
    ensures forall x :: x in pool <==>
              exists i :: 0 <= i < |listing| && listing[i].name == x && Accepted(listing[i], dir, fileType)
  {
    if listing == [] then []
    else
      var rest := PoolOf(listing[..|listing| - 1], dir, fileType);
      var last := listing[|listing| - 1];
      assert forall i :: 0 <= i < |listing| - 1 ==> listing[..|listing| - 1][i] == listing[i];
      if Accepted(last, dir, fileType) then rest + [last.name] else rest
  }

  /** The pool of a listing split in two is the pool of the first part
      followed by the pool of the second: accepted names keep the listing's
      order, and a name listed twice is pooled twice. */
  lemma {:induction false} PoolOfAppend(a: seq<FileEntry>, b: seq<FileEntry>, dir: string, fileType: string -> int)
    ensures PoolOf(a + b, dir, fileType) == PoolOf(a, dir, fileType) + PoolOf(b, dir, fileType)
    decreases |b|
  {
    if b != [] {
      var b' := b[..|b| - 1];
      assert (a + b)[..|a + b| - 1] == a + b';
      PoolOfAppend(a, b', dir, fileType);
    } else {
      assert a + b == a;
    }
  }

  /** A single listed entry pools its name exactly when it is accepted. */
  lemma PoolOfOne(f: FileEntry, dir: string, fileType: string -> int)
    ensures PoolOf([f], dir, fileType) == if Accepted(f, dir, fileType) then [f.name] else []
  {
    assert [f][..0] == [];
  }

  /** Entry of a pool of `n` maps that a selection picks: a draw modulo `n`
      under "RANDOM", the cursor (wrapped to 0 once it reaches `n`) under
      "SEQUENCE", and entry 0 under any other policy. */
  function ChosenEntry(n: nat, iteration: string, cursor: nat, draw: nat): (k: nat)
    requires n > 0
    ensures k < n
    ensures iteration == "RANDOM" ==> k == draw % n
    ensures iteration == "SEQUENCE" && cursor < n ==> k == cursor
    ensures iteration == "SEQUENCE" && cursor >= n ==> k == 0
    ensures iteration != "RANDOM" && iteration != "SEQUENCE" ==> k == 0
  {
    if iteration == "RANDOM" then draw % n
    else if iteration == "SEQUENCE" then (if cursor >= n then 0 else cursor)
    else 0
  }

  /** The cursor after a selection: one past the picked entry under
      "SEQUENCE", unchanged otherwise. */
  function NextCursor(n: nat, iteration: string, cursor: nat, draw: nat): (c: nat)
    requires n > 0
    ensures iteration == "SEQUENCE" ==> 1 <= c <= n
    ensures iteration != "SEQUENCE" ==> c == cursor
  {
    if iteration == "SEQUENCE" then ChosenEntry(n, iteration, cursor, draw) + 1 else cursor
  }

  /** Stepping a count by one steps its remainder by one, wrapping at `n`. */
  lemma ModSucc(n: nat, k: nat)
    requires n > 0
    ensures (k + 1) % n == if k % n + 1 == n then 0 else k % n + 1
  {
    var q, r := k / n, k % n;
    assert k == q * n + r;
    if r + 1 == n {
      assert k + 1 == (q + 1) * n;
      ModOfMultiple(n, q + 1);
    } else {
      assert k + 1 == q * n + (r + 1);
      ModUnique(k + 1, n, q, r + 1);
    }
  }

  lemma ModOfMultiple(n: nat, q: nat)
    requires n > 0
    ensures (q * n) % n == 0
  {
    ModUnique(q * n, n, q, 0);
  }

  lemma {:induction false} MulAtLeast(k: int, n: int)
    requires k >= 1 && n > 0
    ensures k * n >= n
  {
    if k > 1 {
      MulAtLeast(k - 1, n);
      assert k * n == (k - 1) * n + n;
    }
  }

  /** A remainder is the only value below `n` that differs from the
      dividend by a multiple of `n`. */
  lemma ModUnique(a: int, n: int, q: int, r: int)
    requires n > 0 && 0 <= r < n && a == q * n + r
    ensures a % n == r
  {
    var q', r' := a / n, a % n;
    assert a == q' * n + r';
    assert (q - q') * n == r' - r;
    if q - q' >= 1 {
      MulAtLeast(q - q', n);
    } else if q' - q >= 1 {
      MulAtLeast(q' - q, n);
    }
  }

  /** The cursor after `k` selections under "SEQUENCE" from cursor `c`. */
  function CursorAfter(n: nat, c: nat, k: nat): nat
    requires n > 0
  {
    if k == 0 then c else NextCursor(n, "SEQUENCE", CursorAfter(n, c, k - 1), 0)
  }

  /** Starting at cursor 0, the selection after `k` others picks entry
      `k mod n` and leaves the cursor at most `n`: the pool is walked in
      order, every entry once per cycle of `n` selections. */
  lemma {:induction false} SequenceWalk(n: nat, k: nat)
    requires n > 0
    ensures CursorAfter(n, 0, k) <= n
    ensures ChosenEntry(n, "SEQUENCE", CursorAfter(n, 0, k), 0) == k % n
  {
    if k > 0 {
      SequenceWalk(n, k - 1);
      var prev := CursorAfter(n, 0, k - 1);
      var picked := ChosenEntry(n, "SEQUENCE", prev, 0);
      assert CursorAfter(n, 0, k) == picked + 1;
      ModSucc(n, k - 1);
    }
  }

  /** The file name of a full map path: what follows its last '/' or '\\'. */
  function MapFileName(path: string): (name: string)
    ensures |name| <= |path| && name == path[|path| - |name|..]
    ensures forall c :: c in name ==> c != '/' && c != '\\'
    ensures |name| < |path| ==> path[|path| - |name| - 1] == '/' || path[|path| - |name| - 1] == '\\'
  {
    if path == [] || path[|path| - 1] == '/' || path[|path| - 1] == '\\' then []
    else MapFileName(path[..|path| - 1]) + [path[|path| - 1]]
  }

  /** The containing directory of a full map path: what precedes the
      separator before its file name. A path without any separator keeps its
      whole text, because the length computed for the directory wraps around
      in unsigned arithmetic and the copy is cut at the path's end. */
  function MapFileDir(path: string): (dir: string)
    ensures |MapFileName(path)| < |path| ==> |dir| == |path| - |MapFileName(path)| - 1
    ensures |MapFileName(path)| < |path| ==>
              (path[|dir|] == '/' || path[|dir|] == '\\') && dir + [path[|dir|]] + MapFileName(path) == path
    ensures |MapFileName(path)| == |path| ==> dir == path
  {
    var name := MapFileName(path);
    if |name| < |path| then
      var k := |path| - |name| - 1;
      assert path == path[..k] + [path[k]] + path[k + 1..];
      path[..k]
    else path
  }
}

=== FILE: menuspec.dfy ===
/** The auto-menu engine as a value: its state, a reload, a map selection and
    one poll of the menu (GameMenu.cpp, loadAutoMenuData, chooseNewRandomMap,
    onMenuFrame). The class in module GameMenu is proved against these. */
module MenuSpec {
  import opened Types
  import opened Config
  import opened MapPool
  import opened Lobby
  import opened Races

  /** The host's own lookups, which the engine calls but does not implement. */
  datatype Host = Host(
    fileType: string -> int,         // map classifier: 0 not a map, 1 playable, other values unplayable
    raceOf: string -> Race,          // race by name
    gameTypeOf: string -> GameType,  // game type by name
    installPath: string)             // the host's install directory

  /** What a reload derives from the map settings; frames only read it. */
  datatype MapSetup = MapSetup(
    lastAutoMapString: string,  // the normalised map glob of the last reload
    autoMapIteration: string,   // map iteration policy
    autoMapPool: seq<string>,   // candidate map file names
    autoMenuMapPath: string)    // the directory of the map glob, ending in '\\'

  /** Everything the engine keeps between calls. */
  datatype Engine = Engine(
    cfg: Settings,
    maps: MapSetup,
    lastAutoMapEntry: nat,      // the SEQUENCE cursor
    lastMapGen: string,         // the chosen map, or empty
    inGame: bool,
    createdTimer: nat,          // last tick spent on the create-game screen
    waitJoinTimer: nat,         // start of the join wait, 0 when not waiting
    waitSelRaceTimer: nat,      // last race attempt
    waitRestartTimer: nat,      // last error dismissal in the lobby
    actRaceSel: bool,           // race confirmed in this lobby visit
    actStartedGame: bool,       // start issued in this lobby visit
    isHost: bool,
    autoMapTryCount: nat)       // error dialogs met after creating a game

  /** The state after one call, and the writes it issued, in order. */
  datatype Step = Step(next: Engine, acts: seq<Action>)

  const RetryCeiling := 50

  /** The engine does nothing: retries exhausted, or auto-menu switched off. */
  predicate Inert(e: Engine) {
    e.autoMapTryCount > RetryCeiling || e.cfg.mode == "" || e.cfg.mode == "OFF"
  }

  predicate IsCreating(e: Engine) { e.maps.autoMenuMapPath != "" }
  predicate IsJoining(e: Engine) { e.cfg.gameName != "" }
  predicate IsAutoSingle(e: Engine) { e.cfg.mode == "SINGLE_PLAYER" }

  /** The state before any configuration has been read. */
  function Initial(): (e: Engine)
    ensures e.cfg.Valid() && Inert(e)
  {
    Engine(LoadSettings(EmptyStore), MapSetup("", "", [], ""), 0, "", false, 0, 0, 0, 0, false, false, false, 0)
  }

  // ------------------------------------------------------------------ maps

  /** A new map selection. An empty pool leaves everything as it was;
      otherwise the chosen entry, under the map directory, becomes the
      current map. */
  function ChooseNewRandomMap(e: Engine, draw: nat): (r: Engine)
    ensures |e.maps.autoMapPool| == 0 ==> r == e
    ensures r == e.(lastAutoMapEntry := r.lastAutoMapEntry, lastMapGen := r.lastMapGen)
    ensures |e.maps.autoMapPool| > 0 ==>
              exists k :: 0 <= k < |e.maps.autoMapPool| && r.lastMapGen == e.maps.autoMenuMapPath + e.maps.autoMapPool[k]
    ensures |e.maps.autoMapPool| > 0 && e.maps.autoMapIteration == "SEQUENCE" ==>
              && 1 <= r.lastAutoMapEntry <= |e.maps.autoMapPool|
              && r.lastMapGen == e.maps.autoMenuMapPath + e.maps.autoMapPool[r.lastAutoMapEntry - 1]
              && r.lastAutoMapEntry == (if e.lastAutoMapEntry < |e.maps.autoMapPool| then e.lastAutoMapEntry + 1 else 1)
    ensures |e.maps.autoMapPool| > 0 && e.maps.autoMapIteration == "RANDOM" ==>
              && r.lastAutoMapEntry == e.lastAutoMapEntry
              && r.lastMapGen == e.maps.autoMenuMapPath + e.maps.autoMapPool[draw % |e.maps.autoMapPool|]
    ensures |e.maps.autoMapPool| > 0 && e.maps.autoMapIteration != "RANDOM" && e.maps.autoMapIteration != "SEQUENCE" ==>
              && r.lastAutoMapEntry == e.lastAutoMapEntry
              && r.lastMapGen == e.maps.autoMenuMapPath + e.maps.autoMapPool[0]
  {
    var m := e.maps;
    if |m.autoMapPool| == 0 then e
    else
      var n := |m.autoMapPool|;
      var k := ChosenEntry(n, m.autoMapIteration, e.lastAutoMapEntry, draw);
      e.(lastAutoMapEntry := NextCursor(n, m.autoMapIteration, e.lastAutoMapEntry, draw),
         lastMapGen := m.autoMenuMapPath + m.autoMapPool[k])
  }

  /** The normalised map glob configured in `cs`. */
  function ConfiguredGlob(cs: ConfigStore): string {
    Normalise(LoadString(cs, Section, "map", ""))
  }

  /** The map iteration policy configured in `cs`. */
  function ConfiguredIteration(cs: ConfigStore): string {
    LoadString(cs, Section, "mapiteration", "RANDOM")
  }

  /** The map setup after a reload: a changed glob rebuilds the pool and its
      directory from `listing`; the policy is the configured one. */
  function ReloadSetup(m: MapSetup, host: Host, glob: string, iteration: string, listing: seq<FileEntry>): (r: MapSetup)
    ensures r.lastAutoMapString == glob && r.autoMapIteration == iteration
    ensures m.lastAutoMapString == glob ==> r.autoMapPool == m.autoMapPool && r.autoMenuMapPath == m.autoMenuMapPath
    ensures m.lastAutoMapString != glob ==>
              r.autoMenuMapPath == MapDirectory(glob) && r.autoMapPool == PoolOf(listing, r.autoMenuMapPath, host.fileType)
  {
    var m1 := if m.lastAutoMapString != glob then
                var dir := MapDirectory(glob);
                MapSetup(glob, m.autoMapIteration, PoolOf(listing, dir, host.fileType), dir)
              else m;
    m1.(autoMapIteration := iteration)
  }

  /** A reload of the configuration. `listing` is what enumerating the
      configured glob yields, `draw` the random number for a new selection.
      Pool, cursor and current map survive unless the glob or the policy
      changed; either change resets the cursor and the current map and
      selects again. */
  function Reload(e: Engine, host: Host, cs: ConfigStore, listing: seq<FileEntry>, draw: nat): (r: Engine)
    ensures r.cfg == LoadSettings(cs)
  {
    ReloadMaps(e, host, ConfiguredGlob(cs), ConfiguredIteration(cs), listing, draw).(cfg := LoadSettings(cs))
  }

  /** A reload replaces the settings and rebuilds the map setup, and changes
      nothing a frame keeps. Pool, cursor and current map survive unless the
      glob or the policy changed; either change resets the cursor and the
      current map and selects again. */
  lemma ReloadEffect(e: Engine, host: Host, cs: ConfigStore, listing: seq<FileEntry>, draw: nat)
    ensures var r := Reload(e, host, cs, listing, draw);
            && r.maps == ReloadSetup(e.maps, host, ConfiguredGlob(cs), ConfiguredIteration(cs), listing)
            && r == e.(cfg := r.cfg, maps := r.maps, lastAutoMapEntry := r.lastAutoMapEntry, lastMapGen := r.lastMapGen)
            && (e.maps.lastAutoMapString == ConfiguredGlob(cs) && e.maps.autoMapIteration == ConfiguredIteration(cs) ==>
                  r.maps == e.maps && r.lastAutoMapEntry == e.lastAutoMapEntry && r.lastMapGen == e.lastMapGen)
            && (e.maps.lastAutoMapString != ConfiguredGlob(cs) || e.maps.autoMapIteration != ConfiguredIteration(cs) ==>
                  r == ChooseNewRandomMap(e.(cfg := r.cfg, maps := r.maps, lastAutoMapEntry := 0, lastMapGen := ""), draw))
  {
  }

  /** The map part of a reload, for glob `glob` and policy `iteration`. */
  function ReloadMaps(e: Engine, host: Host, glob: string, iteration: string, listing: seq<FileEntry>, draw: nat): (r: Engine)
    ensures r.maps == ReloadSetup(e.maps, host, glob, iteration, listing)
    ensures r == e.(maps := r.maps, lastAutoMapEntry := r.lastAutoMapEntry, lastMapGen := r.lastMapGen)
  {
    var e1 := e.(maps := ReloadSetup(e.maps, host, glob, iteration, listing));
    if e.maps.lastAutoMapString != glob || e.maps.autoMapIteration != iteration then
      ChooseNewRandomMap(e1.(lastAutoMapEntry := 0, lastMapGen := ""), draw)
    else e1
  }

  /** After a reload that changed the glob or the policy, the selection has
      started over: nothing is chosen from an empty pool, SEQUENCE has taken
      the pool's first entry, RANDOM has taken the drawn one. */
  lemma ReloadStartsOver(e: Engine, host: Host, cs: ConfigStore, listing: seq<FileEntry>, draw: nat)
    requires e.maps.lastAutoMapString != ConfiguredGlob(cs) || e.maps.autoMapIteration != ConfiguredIteration(cs)
    ensures var r := Reload(e, host, cs, listing, draw);
            && (|r.maps.autoMapPool| == 0 ==> r.lastMapGen == "" && r.lastAutoMapEntry == 0)
            && (|r.maps.autoMapPool| > 0 && r.maps.autoMapIteration == "SEQUENCE" ==>
                  r.lastAutoMapEntry == 1 && r.lastMapGen == r.maps.autoMenuMapPath + r.maps.autoMapPool[0])
            && (|r.maps.autoMapPool| > 0 && r.maps.autoMapIteration == "RANDOM" ==>
                  r.lastAutoMapEntry == 0 &&
                  r.lastMapGen == r.maps.autoMenuMapPath + r.maps.autoMapPool[draw % |r.maps.autoMapPool|])
  {
  }

  // --------------------------------------------------------------- screens

  /** A key press on a control of dialog `d`, when that dialog is present. */
  function PressIn(v: View, d: Dialog, ctrl: int): seq<Action> {
    if d in v.dialogs then [Press(d, ctrl)] else []
  }

  /** Main menu: unless the title splash is up, choose single or multi
      player, then always the expansion. */
  function MainMenuActions(e: Engine, v: View): (acts: seq<Action>)
    ensures |acts| <= 2
    ensures TitleDlg in v.dialogs ==> acts == []
    ensures TitleDlg !in v.dialogs && MainMenu in v.dialogs ==>
              acts != [] && acts[0] == Press(MainMenu, if IsAutoSingle(e) then 3 else 4)
    ensures multiset(acts)[Press(MainMenu, if IsAutoSingle(e) then 3 else 4)] ==
              if TitleDlg !in v.dialogs && MainMenu in v.dialogs then 1 else 0
    ensures TitleDlg !in v.dialogs ==> (Press(Delete, 7) in acts <==> Delete in v.dialogs)
    ensures multiset(acts)[Press(Delete, 7)] <= 1
    ensures forall a :: a in acts ==> a == Press(MainMenu, if IsAutoSingle(e) then 3 else 4) || a == Press(Delete, 7)
  {
    if TitleDlg in v.dialogs then []
    else PressIn(v, MainMenu, if IsAutoSingle(e) then 3 else 4) + PressIn(v, Delete, 7)
  }

  /** The race writes for enemy slots 1..k in the single-player create screen. */
  function EnemyRaceActions(cfg: Settings, host: Host, v: View, k: nat): (acts: seq<Action>)
    requires cfg.Valid() && WellFormed(v) && k <= 7
    ensures ActivateStart !in acts
  {
    if k == 0 then []
    else EnemyRaceActions(cfg, host, v, k - 1) + EnemyRaceChange(cfg, host, v, k)
  }

  /** The race enemy slot `k` is set to: its configured token, resolved
      with the slot's own draw. */
  function EnemyRace(cfg: Settings, host: Host, v: View, k: nat): Race
    requires cfg.Valid() && WellFormed(v) && 1 <= k <= 7
  {
    MenuRace(cfg.enemyRace[k], v.coins[k], host.raceOf)
  }

  /** The race write for enemy slot `k`. */
  function EnemyRaceChange(cfg: Settings, host: Host, v: View, k: nat): (acts: seq<Action>)
    requires cfg.Valid() && WellFormed(v) && 1 <= k <= 7
    ensures ActivateStart !in acts
  {
    ChangeRace(v, k, EnemyRace(cfg, host, v, k))
  }

  /** With the Create dialog up, every enemy race write sets a slot in 1..k
      to its resolved race, and only when that slot's control shows another
      race and the race is no lookup sentinel. */
  lemma {:induction false} EnemyRaceWritesResolved(cfg: Settings, host: Host, v: View, k: nat)
    requires cfg.Valid() && WellFormed(v) && k <= 7 && Create in v.dialogs
    ensures forall a :: a in EnemyRaceActions(cfg, host, v, k) ==>
              && a.SetSlotRace? && 1 <= a.slot <= k
              && a.race == EnemyRace(cfg, host, v, a.slot)
              && !IsSentinel(a.race) && SlotShowsOther(v, a.slot, a.race)
  {
    if k > 0 {
      EnemyRaceWritesResolved(cfg, host, v, k - 1);
      assert SlotControl(k) == k;
    }
  }

  /** With the Create dialog up, every enemy slot 1..k whose control shows
      a race other than its resolved one, a non-sentinel, is written. */
  lemma {:induction false} EnemyRacesWritten(cfg: Settings, host: Host, v: View, k: nat)
    requires cfg.Valid() && WellFormed(v) && k <= 7 && Create in v.dialogs
    ensures forall i :: 1 <= i <= k && !IsSentinel(EnemyRace(cfg, host, v, i)) && SlotShowsOther(v, i, EnemyRace(cfg, host, v, i)) ==>
              SetSlotRace(i, EnemyRace(cfg, host, v, i)) in EnemyRaceActions(cfg, host, v, k)
  {
    if k > 0 {
      EnemyRacesWritten(cfg, host, v, k - 1);
      assert SlotControl(k) == k;
    }
  }

  /** Close the slot dropdowns `from`..6 (controls 21 + i) that are not closed yet. */
  function CloseSlotActions(v: View, from: nat): (acts: seq<Action>)
    requires WellFormed(v) && from <= 7
    ensures ActivateStart !in acts
    decreases 7 - from
  {
    if from == 7 || Create !in v.dialogs then []
    else (if v.slotSelection[from] != 0 then [SelectIndex(Create, 21 + from, 0)] else []) + CloseSlotActions(v, from + 1)
  }

  /** The slot closing selects index 0 of dropdowns 21 + from .. 27 only,
      and only of those not closed yet. */
  lemma {:induction false} SlotClosingsNeeded(v: View, from: nat)
    requires WellFormed(v) && from <= 7
    ensures forall a :: a in CloseSlotActions(v, from) ==>
              a.SelectIndex? && a.dlg == Create && 21 + from <= a.ctrl < 28 && a.index == 0 &&
              v.slotSelection[a.ctrl - 21] != 0
    decreases 7 - from
  {
    if from < 7 && Create in v.dialogs {
      SlotClosingsNeeded(v, from + 1);
      var close := if v.slotSelection[from] != 0 then [SelectIndex(Create, 21 + from, 0)] else [];
      assert CloseSlotActions(v, from) == close + CloseSlotActions(v, from + 1);
    }
  }

  /** With the Create dialog up, the slot closing selects index 0 of every
      dropdown 21 + from .. 27 not closed yet. */
  lemma {:induction false} SlotsClosed(v: View, from: nat)
    requires WellFormed(v) && from <= 7 && Create in v.dialogs
    ensures forall i :: from <= i < 7 && v.slotSelection[i] != 0 ==> SelectIndex(Create, 21 + i, 0) in CloseSlotActions(v, from)
    decreases 7 - from
  {
    if from < 7 {
      SlotsClosed(v, from + 1);
      var close := if v.slotSelection[from] != 0 then [SelectIndex(Create, 21 + from, 0)] else [];
      var rest := CloseSlotActions(v, from + 1);
      assert CloseSlotActions(v, from) == close + rest;
      forall i | from <= i < 7 && v.slotSelection[i] != 0
        ensures SelectIndex(Create, 21 + i, 0) in close + rest
      {
        if i == from {
          assert close[0] == SelectIndex(Create, 21 + i, 0);
        } else {
          assert SelectIndex(Create, 21 + i, 0) in rest;
        }
      }
    }
  }

  /** Create screen, playable map: the game type, and in single player the races and closed slots. */
  function CreateSetup(cfg: Settings, host: Host, v: View): (acts: seq<Action>)
    requires cfg.Valid() && WellFormed(v)
    ensures ActivateStart !in acts
  {
    GameTypeActions(cfg, host, v) +
    if cfg.mode == "SINGLE_PLAYER" then
      ChangeRace(v, 0, MenuRace(cfg.race, v.coins[0], host.raceOf))
      + EnemyRaceActions(cfg, host, v, cfg.enemyCount) + CloseSlotActions(v, cfg.enemyCount)
    else []
  }

  /** Select the configured game type, unless the lookup fails or the
      dropdown (Create control 17) already shows it. */
  function GameTypeActions(cfg: Settings, host: Host, v: View): (acts: seq<Action>)
    ensures |acts| <= 1
    ensures var gt := host.gameTypeOf(cfg.gameType);
            acts != [] <==> Create in v.dialogs && gt.GameTypeValue? && v.gameTypeValue != gt.id
    ensures acts != [] ==> acts == [SelectValue(Create, 17, host.gameTypeOf(cfg.gameType).id)]
  {
    var gt := host.gameTypeOf(cfg.gameType);
    if Create in v.dialogs && gt.GameTypeValue? && v.gameTypeValue != gt.id
    then [SelectValue(Create, 17, gt.id)] else []
  }

  /** With the Create dialog up, the setup writes the game type exactly as
      GameTypeActions says; outside single player it writes nothing else. */
  lemma CreateSetupGameType(cfg: Settings, host: Host, v: View)
    requires cfg.Valid() && WellFormed(v) && Create in v.dialogs
    ensures var acts := CreateSetup(cfg, host, v);
            var gt := host.gameTypeOf(cfg.gameType);
            && (forall a :: a in acts && a.SelectValue? ==> gt.GameTypeValue? && a == SelectValue(Create, 17, gt.id))
            && ((exists a :: a in acts && a.SelectValue?) <==> gt.GameTypeValue? && v.gameTypeValue != gt.id)
            && (cfg.mode != "SINGLE_PLAYER" ==> forall a :: a in acts ==> a.SelectValue?)
  {
    var gta := GameTypeActions(cfg, host, v);
    var acts := CreateSetup(cfg, host, v);
    var rest := acts[|gta|..];
    assert acts == gta + rest;
    if cfg.mode == "SINGLE_PLAYER" {
      SetupRestSelectsNoValue(cfg, host, v);
    } else {
      assert rest == [];
    }
    forall a | a in acts
      ensures a in gta || a in rest
    {
    }
    if gta != [] {
      assert gta[0] in acts;
    }
  }

  /** The single-player part of the setup selects no dropdown value. */
  lemma SetupRestSelectsNoValue(cfg: Settings, host: Host, v: View)
    requires cfg.Valid() && WellFormed(v) && Create in v.dialogs && cfg.mode == "SINGLE_PLAYER"
    ensures forall a :: a in CreateSetup(cfg, host, v)[|GameTypeActions(cfg, host, v)|..] ==> !a.SelectValue?
  {
    var own := ChangeRace(v, 0, MenuRace(cfg.race, v.coins[0], host.raceOf));
    var enemies := EnemyRaceActions(cfg, host, v, cfg.enemyCount);
    var closing := CloseSlotActions(v, cfg.enemyCount);
    EnemyRaceWritesResolved(cfg, host, v, cfg.enemyCount);
    SlotClosingsNeeded(v, cfg.enemyCount);
    assert CreateSetup(cfg, host, v)[|GameTypeActions(cfg, host, v)|..] == own + enemies + closing;
  }

  /** The single-player setup in its four parts: the game type, the own
      race, the enemy races and the slot closing. */
  lemma SetupParts(cfg: Settings, host: Host, v: View)
    requires cfg.Valid() && WellFormed(v) && cfg.mode == "SINGLE_PLAYER"
    ensures forall a :: a in CreateSetup(cfg, host, v) <==>
              || a in GameTypeActions(cfg, host, v)
              || a in ChangeRace(v, 0, MenuRace(cfg.race, v.coins[0], host.raceOf))
              || a in EnemyRaceActions(cfg, host, v, cfg.enemyCount)
              || a in CloseSlotActions(v, cfg.enemyCount)
  {
  }

  /** In single player, with the Create dialog up, the setup sets slot 0 to
      the resolved own race and enemy slots 1..count to their resolved races,
      each exactly when its control shows another race and the race is no
      sentinel, and touches no other slot's race. */
  lemma CreateSetupRaces(cfg: Settings, host: Host, v: View)
    requires cfg.Valid() && WellFormed(v) && Create in v.dialogs && cfg.mode == "SINGLE_PLAYER"
    ensures var acts := CreateSetup(cfg, host, v);
            var own := MenuRace(cfg.race, v.coins[0], host.raceOf);
            && (SetSlotRace(0, own) in acts <==> !IsSentinel(own) && SlotShowsOther(v, 0, own))
            && (forall a :: a in acts && a.SetSlotRace? ==>
                  0 <= a.slot <= cfg.enemyCount && !IsSentinel(a.race) && SlotShowsOther(v, a.slot, a.race) &&
                  a.race == if a.slot == 0 then own else EnemyRace(cfg, host, v, a.slot))
            && (forall i :: 1 <= i <= cfg.enemyCount ==>
                  (SetSlotRace(i, EnemyRace(cfg, host, v, i)) in acts <==>
                   !IsSentinel(EnemyRace(cfg, host, v, i)) && SlotShowsOther(v, i, EnemyRace(cfg, host, v, i))))
  {
    SetupParts(cfg, host, v);
    EnemyRaceWritesResolved(cfg, host, v, cfg.enemyCount);
    EnemyRacesWritten(cfg, host, v, cfg.enemyCount);
    SlotClosingsNeeded(v, cfg.enemyCount);
    assert SlotControl(0) == 0;
  }

  /** The single-player writes before the slot closing: the game type, the
      own race and the enemy races. */
  function SetupFront(cfg: Settings, host: Host, v: View): seq<Action>
    requires cfg.Valid() && WellFormed(v)
  {
    GameTypeActions(cfg, host, v) + ChangeRace(v, 0, MenuRace(cfg.race, v.coins[0], host.raceOf))
    + EnemyRaceActions(cfg, host, v, cfg.enemyCount)
  }

  /** In single player the setup is its front followed by the slot closing. */
  lemma SetupFrontThenClosing(cfg: Settings, host: Host, v: View)
    requires cfg.Valid() && WellFormed(v) && cfg.mode == "SINGLE_PLAYER"
    ensures CreateSetup(cfg, host, v) == SetupFront(cfg, host, v) + CloseSlotActions(v, cfg.enemyCount)
  {
    var gta := GameTypeActions(cfg, host, v);
    var own := ChangeRace(v, 0, MenuRace(cfg.race, v.coins[0], host.raceOf));
    var enemies := EnemyRaceActions(cfg, host, v, cfg.enemyCount);
    var closing := CloseSlotActions(v, cfg.enemyCount);
    assert CreateSetup(cfg, host, v) == gta + (own + enemies + closing);
    AppendAssoc(own, enemies, closing);
    AppendAssoc(gta, own + enemies, closing);
    AppendAssoc(gta, own, enemies);
  }

  /** With the Create dialog up, the front of the setup selects no dropdown index. */
  lemma SetupFrontSelectsNoIndex(cfg: Settings, host: Host, v: View)
    requires cfg.Valid() && WellFormed(v) && Create in v.dialogs
    ensures forall a :: a in SetupFront(cfg, host, v) ==> !a.SelectIndex?
  {
    var gta := GameTypeActions(cfg, host, v);
    var own := ChangeRace(v, 0, MenuRace(cfg.race, v.coins[0], host.raceOf));
    var enemies := EnemyRaceActions(cfg, host, v, cfg.enemyCount);
    EnemyRaceWritesResolved(cfg, host, v, cfg.enemyCount);
    forall a: Action | a in gta + own + enemies
      ensures !a.SelectIndex?
    {
      if a !in gta && a !in own {
        assert a in enemies;
      }
    }
  }

  /** In single player, with the Create dialog up, the only dropdown index
      writes of the setup are those of the slot closing, and all of them are. */
  lemma SetupIndexWrites(cfg: Settings, host: Host, v: View)
    requires cfg.Valid() && WellFormed(v) && Create in v.dialogs && cfg.mode == "SINGLE_PLAYER"
    ensures forall a :: a in CreateSetup(cfg, host, v) && a.SelectIndex? <==> a in CloseSlotActions(v, cfg.enemyCount)
  {
    SetupFrontThenClosing(cfg, host, v);
    SetupFrontSelectsNoIndex(cfg, host, v);
    SlotClosingsNeeded(v, cfg.enemyCount);
    var front := SetupFront(cfg, host, v);
    var closing := CloseSlotActions(v, cfg.enemyCount);
    forall a | a in CreateSetup(cfg, host, v)
      ensures a in front || a in closing
    {
    }
  }

  /** In single player, with the Create dialog up, the setup closes exactly
      the slot dropdowns count..6 not closed yet, and no other dropdown
      index is selected. */
  lemma CreateSetupClosing(cfg: Settings, host: Host, v: View)
    requires cfg.Valid() && WellFormed(v) && Create in v.dialogs && cfg.mode == "SINGLE_PLAYER"
    ensures var acts := CreateSetup(cfg, host, v);
            && (forall i :: cfg.enemyCount <= i < 7 ==> (SelectIndex(Create, 21 + i, 0) in acts <==> v.slotSelection[i] != 0))
            && (forall a :: a in acts && a.SelectIndex? ==> 21 + cfg.enemyCount <= a.ctrl < 28)
  {
    SetupIndexWrites(cfg, host, v);
    SlotClosingsNeeded(v, cfg.enemyCount);
    SlotsClosed(v, cfg.enemyCount);
  }

  /** The map-list rewrite for the current map. */
  function RewriteFor(host: Host, mapGen: string): (a: Action)
    ensures a.RewriteMapList? && a.fullPath == host.installPath + mapGen
  {
    var path := host.installPath + mapGen;
    RewriteMapList(MapFileName(path), path, MapFileDir(path))
  }

  /** The map-list rewrite names the full path under the install directory,
      its file name, and its directory, which put back together with the
      separator between them give the path again. */
  lemma RewriteSplitsPath(host: Host, mapGen: string)
    ensures var a := RewriteFor(host, mapGen);
            && a.entryName == MapFileName(a.fullPath)
            && (|a.entryName| < |a.fullPath| ==>
                  |a.folder| < |a.fullPath| && a.folder + [a.fullPath[|a.folder|]] + a.entryName == a.fullPath)
            && (|a.entryName| == |a.fullPath| ==> a.folder == a.fullPath)
  {
  }

  /** An error dialog on the create screen costs one retry, triggers a new
      selection and is dismissed; without one nothing happens. */
  function RetryStep(e: Engine, v: View): (r: Step)
    ensures r.acts == PressIn(v, GluPOk, 1)
    ensures GluPOk !in v.dialogs ==> r.next == e
    ensures GluPOk in v.dialogs ==>
              r.next == ChooseNewRandomMap(e, v.mapDraw).(autoMapTryCount := e.autoMapTryCount + 1)
  {
    if GluPOk in v.dialogs
    then Step(ChooseNewRandomMap(e, v.mapDraw).(autoMapTryCount := e.autoMapTryCount + 1), [Press(GluPOk, 1)])
    else Step(e, [])
  }

  /** Create screen. The tick is recorded. Nothing else happens without a
      chosen map; otherwise the screen is set up for a playable map, every
      map-list entry is pointed at the map, an error dialog costs one retry
      and a new selection, and the game is created. */
  function CreateFrame(e: Engine, host: Host, v: View, now: nat): (r: Step)
    requires e.cfg.Valid() && WellFormed(v)
    ensures ActivateStart !in r.acts
    ensures r.next.autoMapTryCount == e.autoMapTryCount + (if e.lastMapGen != "" && GluPOk in v.dialogs then 1 else 0)
    ensures e.lastMapGen != "" && GluPOk in v.dialogs ==>
              r.next == ChooseNewRandomMap(e, v.mapDraw).(createdTimer := now, autoMapTryCount := e.autoMapTryCount + 1)
    ensures !(e.lastMapGen != "" && GluPOk in v.dialogs) ==> r.next == e.(createdTimer := now)
    ensures e.lastMapGen == "" ==> r.acts == []
  {
    var e1 := e.(createdTimer := now);
    if e.lastMapGen == "" then Step(e1, [])
    else
      var retry := RetryStep(e1, v);
      var setup := CreateSetupFor(e.cfg, host, v, e.lastMapGen);
      assert ActivateStart !in setup && ActivateStart !in retry.acts + PressIn(v, Create, 12);
      Step(retry.next, setup + [RewriteFor(host, e.lastMapGen)] + retry.acts + PressIn(v, Create, 12))
  }

  /** The setup writes of the create screen: only for a playable map. */
  function CreateSetupFor(cfg: Settings, host: Host, v: View, mapGen: string): (acts: seq<Action>)
    requires cfg.Valid() && WellFormed(v)
    ensures ActivateStart !in acts
    ensures host.fileType(mapGen) != 1 ==> acts == []
  {
    if host.fileType(mapGen) == 1 then CreateSetup(cfg, host, v) else []
  }

  /** With a chosen map, the create screen points the map list at it,
      dismisses an error dialog, and ends by creating the game. */
  lemma CreateFrameWrites(e: Engine, host: Host, v: View, now: nat)
    requires e.cfg.Valid() && WellFormed(v) && e.lastMapGen != ""
    ensures var acts := CreateFrame(e, host, v, now).acts;
            && RewriteFor(host, e.lastMapGen) in acts
            && (GluPOk in v.dialogs ==> Press(GluPOk, 1) in acts)
            && (Create in v.dialogs ==> acts[|acts| - 1] == Press(Create, 12))
  {
    var setup := CreateSetupFor(e.cfg, host, v, e.lastMapGen);
    var acts := CreateFrame(e, host, v, now).acts;
    assert acts[|setup|] == RewriteFor(host, e.lastMapGen);
    assert GluPOk in v.dialogs ==> acts[|setup| + 1] == Press(GluPOk, 1);
  }

  /** Connect screen: go on for Battle.net, or once the configured LAN mode
      could be selected. The join wait is reset. */
  function ConnectFrame(e: Engine, v: View): (r: Step)
    ensures r.next == e.(waitJoinTimer := 0)
    ensures Press(ConnSel, 9) in r.acts <==>
              ConnSel in v.dialogs && (e.cfg.mode == "BATTLE_NET" || (v.lanVisible && v.lanListed))
    ensures SelectString(ConnSel, 5, e.cfg.lanMode) in r.acts <==>
              e.cfg.mode != "BATTLE_NET" && ConnSel in v.dialogs && v.lanVisible && v.lanListed
    ensures |r.acts| <= 2
    ensures forall a :: a in r.acts ==> a == SelectString(ConnSel, 5, e.cfg.lanMode) || a == Press(ConnSel, 9)
    ensures |r.acts| == 2 ==> r.acts[0] == SelectString(ConnSel, 5, e.cfg.lanMode) && r.acts[1] == Press(ConnSel, 9)
    ensures ActivateStart !in r.acts
  {
    var lanOk := ConnSel in v.dialogs && v.lanVisible && v.lanListed;
    var select := if e.cfg.mode != "BATTLE_NET" && lanOk then [SelectString(ConnSel, 5, e.cfg.lanMode)] else [];
    Step(e.(waitJoinTimer := 0), select + (if e.cfg.mode == "BATTLE_NET" || lanOk then PressIn(v, ConnSel, 9) else []))
  }

  /** When the join wait started, as the game browser sees it this frame. */
  function JoinWaitStart(e: Engine, now: nat): nat {
    if e.waitJoinTimer == 0 then now else e.waitJoinTimer
  }

  /** The configured session is not listed yet and this instance's wait,
      3 s times its ordinal plus one, has not run out. */
  predicate StillWaiting(e: Engine, v: View, now: nat) {
    IsJoining(e) && !v.gameListed && JoinWaitStart(e, now) + 3000 * (v.instance + 1) > now
  }

  /** Selecting the configured session in the browser's list, when it is listed. */
  function SelectGame(e: Engine, v: View): seq<Action> {
    if IsJoining(e) && v.gameListed then [SelectString(GameSel, 5, e.cfg.gameName)] else []
  }

  /** Game browser: wait for the configured session; then host when
      creating and nothing is joined, or join and drop the chosen map. */
  function GameSelectFrame(e: Engine, v: View, now: nat): (r: Step)
    ensures r.next == e.(waitJoinTimer := r.next.waitJoinTimer, isHost := r.next.isHost, lastMapGen := r.next.lastMapGen)
  {
    var e1 := e.(waitJoinTimer := JoinWaitStart(e, now));
    if GameSel !in v.dialogs then Step(e1, [])
    else if StillWaiting(e, v, now) then Step(e1, SelectGame(e, v))
    else
      var choice := SessionChoice(e1, v, now);
      Step(choice.next, SelectGame(e, v) + choice.acts)
  }

  /** The wait is over: host when creating and nothing was joined, else
      join and drop the chosen map. */
  function SessionChoice(e: Engine, v: View, now: nat): (r: Step)
    ensures r.next == e.(waitJoinTimer := now, isHost := r.next.isHost, lastMapGen := r.next.lastMapGen)
  {
    var host := !(IsJoining(e) && v.gameListed);
    var e1 := e.(waitJoinTimer := now, isHost := host);
    if IsCreating(e) && host then Step(e1, SelectGame(e, v) + [Press(GameSel, 15)])
    else Step(e1.(lastMapGen := ""), SelectGame(e, v) + [Press(GameSel, 13)])
  }

  /** While the session is awaited no key is pressed and the wait start is
      kept. Afterwards the host flag says whether nothing was joined; Create
      is pressed exactly when creating and hosting, OK otherwise, and
      joining drops the chosen map. */
  lemma GameSelectEffect(e: Engine, v: View, now: nat)
    ensures var r := GameSelectFrame(e, v, now);
            && ActivateStart !in r.acts
            && (GameSel !in v.dialogs || StillWaiting(e, v, now) ==>
                  r.next == e.(waitJoinTimer := JoinWaitStart(e, now)) &&
                  forall a :: a in r.acts ==> !a.Press?)
            && (GameSel in v.dialogs && !StillWaiting(e, v, now) ==>
                  && r.next.waitJoinTimer == now
                  && r.next.isHost == !(IsJoining(e) && v.gameListed)
                  && (Press(GameSel, 15) in r.acts <==> IsCreating(e) && r.next.isHost)
                  && (Press(GameSel, 13) in r.acts <==> !(IsCreating(e) && r.next.isHost))
                  && (Press(GameSel, 13) in r.acts ==> r.next.lastMapGen == "")
                  && (Press(GameSel, 15) in r.acts ==> r.next.lastMapGen == e.lastMapGen))
  {
  }

  /** The lobby gate for a race attempt: not yet confirmed, the Chat dialog
      up, a valid own slot, and 300 ms since the last attempt. */
  predicate RaceGate(e: Engine, v: View, now: nat) {
    !e.actRaceSel && Chat in v.dialogs && 0 <= v.currentPlayer < 8 && e.waitSelRaceTimer + 300 < now
  }

  /** The race the lobby attempt aims for this frame. */
  function LobbyRace(e: Engine, host: Host, v: View): Race
    requires WellFormed(v)
  {
    MenuRace(e.cfg.race, v.coins[0], host.raceOf)
  }

  /** The lobby shows this client's slot with an acceptable race. */
  predicate LobbyRaceConfirmed(e: Engine, host: Host, v: View)
    requires WellFormed(v) && 0 <= v.currentPlayer < 8
  {
    RaceConfirmed(e.cfg.race, v.lobby[v.currentPlayer].race, LobbyRace(e, host, v))
  }

  /** Lobby race attempt: confirm an acceptable race once, or ask for the
      configured one. */
  function RaceStep(e: Engine, host: Host, v: View, now: nat): (r: Step)
    requires WellFormed(v)
    ensures ActivateStart !in r.acts
    ensures r.next == e.(waitSelRaceTimer := r.next.waitSelRaceTimer, actRaceSel := r.next.actRaceSel)
  {
    if RaceGate(e, v, now) then
      var e1 := e.(waitSelRaceTimer := now);
      var race := LobbyRace(e, host, v);
      if IsSentinel(race) then Step(e1, [])
      else if LobbyRaceConfirmed(e, host, v) then Step(e1.(actRaceSel := true), [])
      else Step(e1, ChangeRace(v, 8, race))
    else Step(e, [])
  }

  /** Outside the gate nothing happens. Inside it the attempt is timed, the
      confirmed flag is set exactly when an acceptable race shows, and a
      race change is requested exactly when it does not. */
  lemma RaceStepEffect(e: Engine, host: Host, v: View, now: nat)
    requires WellFormed(v)
    ensures var r := RaceStep(e, host, v, now);
            && (!RaceGate(e, v, now) ==> r == Step(e, []))
            && (RaceGate(e, v, now) ==> r.next.waitSelRaceTimer == now)
            && (r.next.actRaceSel <==>
                  e.actRaceSel ||
                  (RaceGate(e, v, now) && !IsSentinel(LobbyRace(e, host, v)) && LobbyRaceConfirmed(e, host, v)))
            && (r.acts != [] ==> RaceGate(e, v, now) && !r.next.actRaceSel &&
                                 r.acts == ChangeRace(v, 8, LobbyRace(e, host, v)))
            && (RaceGate(e, v, now) && !IsSentinel(LobbyRace(e, host, v)) && !LobbyRaceConfirmed(e, host, v) ==>
                  r.acts == ChangeRace(v, 8, LobbyRace(e, host, v)))
  {
  }

  /** When the configured token is composite and the lobby already shows
      either race of its pair, an attempt inside the gate confirms the race
      and asks for no change, whatever the draw. */
  lemma CompositeRaceConfirmed(e: Engine, host: Host, v: View, now: nat)
    requires WellFormed(v) && RaceGate(e, v, now)
    requires IsComposite(e.cfg.race) && InPair(e.cfg.race, v.lobby[v.currentPlayer].race)
    ensures var r := RaceStep(e, host, v, now);
            r.next.actRaceSel && r.acts == [] && r.next.waitSelRaceTimer == now
  {
  }

  /** The host is creating, hosting, has not started, has waited 2 s since
      the last error, every human is ready, enough are ready or the lobby is
      full, the maximum or a full lobby or the wait time is reached, and the
      start control can be activated. */
  predicate StartAllowed(e: Engine, v: View, now: nat)
    requires WellFormed(v)
  {
    var ready := ReadyCount(v.lobby);
    var open := OpenCount(v.lobby);
    && IsCreating(e) && e.waitRestartTimer + 2000 < now && !e.actStartedGame && e.isHost
    && ready > 0 && ready == PlayerCount(v.lobby)
    && (AtLeast(ready, e.cfg.minPlayers) || open == 0)
    && (AtLeast(ready, e.cfg.maxPlayers) || open == 0 || now > e.createdTimer + e.cfg.waitTime)
    && Chat in v.dialogs && !v.startDisabled
  }

  /** An unsigned count compared with a configured bound: a negative bound
      converts to a value far above any slot count and is never reached. */
  predicate AtLeast(count: nat, bound: int) {
    0 <= bound <= count
  }

  /** An error dialog in the lobby is dismissed; it clears the start flag
      and restarts the 2 s wait. */
  function DismissStep(e: Engine, v: View, now: nat): (r: Step)
    ensures r.acts == PressIn(v, GluPOk, 1)
    ensures GluPOk !in v.dialogs ==> r.next == e
    ensures GluPOk in v.dialogs ==> r.next == e.(actStartedGame := false, waitRestartTimer := now)
  {
    if GluPOk in v.dialogs then Step(e.(actStartedGame := false, waitRestartTimer := now), [Press(GluPOk, 1)])
    else Step(e, [])
  }

  /** The auto-start: when allowed, the start control is activated and the
      start flag set. */
  function StartStep(e: Engine, v: View, now: nat): (r: Step)
    requires WellFormed(v)
    ensures StartAllowed(e, v, now) ==> r == Step(e.(actStartedGame := true), [ActivateStart])
    ensures !StartAllowed(e, v, now) ==> r == Step(e, [])
  {
    if StartAllowed(e, v, now) then Step(e.(actStartedGame := true), [ActivateStart]) else Step(e, [])
  }

  /** Lobby screen: race attempt, error dismissal, auto-start. */
  function ChatFrame(e: Engine, host: Host, v: View, now: nat): (r: Step)
    requires WellFormed(v)
    ensures r.next == e.(waitJoinTimer := 0, waitSelRaceTimer := r.next.waitSelRaceTimer,
                         waitRestartTimer := r.next.waitRestartTimer, actRaceSel := r.next.actRaceSel,
                         actStartedGame := r.next.actStartedGame)
  {
    var s1 := RaceStep(e.(waitJoinTimer := 0), host, v, now);
    var s2 := DismissStep(s1.next, v, now);
    var s3 := StartStep(s2.next, v, now);
    Step(s3.next, s1.acts + s2.acts + s3.acts)
  }

  /** In the lobby the start control is activated at most once, exactly
      when no error dialog is up and the auto-start is allowed; the start
      flag is then set, kept while no error dialog appears, and cleared by
      one. */
  lemma ChatStart(e: Engine, host: Host, v: View, now: nat)
    requires WellFormed(v)
    ensures var r := ChatFrame(e, host, v, now);
            && Starts(r.acts) <= 1
            && (ActivateStart in r.acts <==> GluPOk !in v.dialogs && StartAllowed(e, v, now))
            && r.next.actStartedGame == (GluPOk !in v.dialogs && (e.actStartedGame || StartAllowed(e, v, now)))
  {
    var s1 := RaceStep(e.(waitJoinTimer := 0), host, v, now);
    var s2 := DismissStep(s1.next, v, now);
    assert StartAllowed(s2.next, v, now) <==> GluPOk !in v.dialogs && StartAllowed(e, v, now);
    var s3 := StartStep(s2.next, v, now);
    assert Starts(s1.acts) == 0 && Starts(s2.acts) == 0;
    assert ChatFrame(e, host, v, now).acts == s1.acts + s2.acts + s3.acts;
  }

  /** An error dialog in the lobby is dismissed and restarts the 2 s wait;
      without one the wait keeps its start. */
  lemma ChatDismissal(e: Engine, host: Host, v: View, now: nat)
    requires WellFormed(v)
    ensures var r := ChatFrame(e, host, v, now);
            && (GluPOk in v.dialogs ==> r.next.waitRestartTimer == now && Press(GluPOk, 1) in r.acts)
            && (GluPOk !in v.dialogs ==> r.next.waitRestartTimer == e.waitRestartTimer)
  {
    var s1 := RaceStep(e.(waitJoinTimer := 0), host, v, now);
    var s2 := DismissStep(s1.next, v, now);
    var acts := ChatFrame(e, host, v, now).acts;
    assert GluPOk in v.dialogs ==> acts[|s1.acts|] == Press(GluPOk, 1);
  }

  /** Login screen: fill in a placeholder name if asked for one, then confirm. */
  function LoginActions(v: View): (acts: seq<Action>)
    ensures GluPEdit in v.dialogs ==> acts == [SetText(GluPEdit, 4, "BWAPI"), Press(GluPEdit, 1)]
    ensures GluPEdit !in v.dialogs ==>
              (acts != [] <==> Login in v.dialogs) && forall a :: a in acts ==> a == Press(Login, 4)
  {
    if GluPEdit in v.dialogs then [SetText(GluPEdit, 4, "BWAPI"), Press(GluPEdit, 1)]
    else PressIn(v, Login, 4)
  }

  predicate IsScoreScreen(g: Glue) {
    g == GlueScoreZDefeat || g == GlueScoreZVictory || g == GlueScoreTDefeat ||
    g == GlueScoreTVictory || g == GlueScorePDefeat || g == GlueScorePVictory
  }

  predicate IsBriefing(g: Glue) { g == GlueReadyT || g == GlueReadyZ || g == GlueReadyP }

  predicate IsCreateScreen(g: Glue) { g == GlueCreate || g == GlueCreateMulti }

  // ----------------------------------------------------------------- frame

  /** This frame dismisses an error dialog on the create screen. */
  predicate RetryFrame(e: Engine, v: View) {
    !Inert(e) && IsCreateScreen(v.menu) && e.lastMapGen != "" && GluPOk in v.dialogs
  }

  /** This frame activates the start control. */
  predicate StartFires(e: Engine, v: View, now: nat)
    requires WellFormed(v)
  {
    !Inert(e) && v.menu == GlueChat && GluPOk !in v.dialogs && StartAllowed(e, v, now)
  }

  /** The writes of the screens whose handlers only press keys. */
  function SimpleScreenActions(e: Engine, v: View): (acts: seq<Action>)
    ensures ActivateStart !in acts
    ensures v.menu == GlueMainMenu ==> acts == MainMenuActions(e, v)
    ensures v.menu == GlueExCampaign || v.menu == GlueCampaign ==>
              (acts != [] <==> RaceSelection in v.dialogs) && forall a :: a in acts ==> a == Press(RaceSelection, 10)
    ensures v.menu == GlueLogin ==> acts == LoginActions(v)
    ensures IsScoreScreen(v.menu) ==>
              (acts != [] <==> e.cfg.restartGame != "" && e.cfg.restartGame != "OFF" && End in v.dialogs) &&
              forall a :: a in acts ==> a == Press(End, 7)
    ensures IsBriefing(v.menu) ==>
              var dlg := if v.menu == GlueReadyZ then ReadyZ else TerranRR;
              (acts != [] <==> dlg in v.dialogs) && forall a :: a in acts ==> a == Press(dlg, 13)
    ensures (v.menu != GlueMainMenu && v.menu != GlueExCampaign && v.menu != GlueCampaign && v.menu != GlueLogin &&
             !IsScoreScreen(v.menu) && !IsBriefing(v.menu)) ==> acts == []
  {
    match v.menu
    case GlueMainMenu => MainMenuActions(e, v)
    case GlueExCampaign => PressIn(v, RaceSelection, 10)
    case GlueCampaign => PressIn(v, RaceSelection, 10)
    case GlueLogin => LoginActions(v)
    case GlueReadyT => PressIn(v, TerranRR, 13)
    case GlueReadyZ => PressIn(v, ReadyZ, 13)
    case GlueReadyP => PressIn(v, TerranRR, 13)
    case _ =>
      if IsScoreScreen(v.menu) && e.cfg.restartGame != "" && e.cfg.restartGame != "OFF" then PressIn(v, End, 7) else []
  }

  /** The screen dispatch, after the guards and the sticky-flag reset. */
  function Dispatch(e: Engine, host: Host, v: View, now: nat): (r: Step)
    requires e.cfg.Valid() && WellFormed(v)
    ensures r.next.cfg == e.cfg && r.next.maps == e.maps
  {
    if v.menu == GlueChat then ChatFrame(e, host, v, now)
    else if IsCreateScreen(v.menu) then CreateFrame(e, host, v, now)
    else if v.menu == GlueConnect then ConnectFrame(e, v)
    else if v.menu == GlueGameSelect then GameSelectFrame(e, v, now)
    else Step(e, SimpleScreenActions(e, v))
  }

  /** Only the lobby can start the game and only the create screen moves
      the retry count; the sticky flags change only in the lobby. */
  lemma DispatchEffect(e: Engine, host: Host, v: View, now: nat)
    requires e.cfg.Valid() && WellFormed(v)
    ensures var r := Dispatch(e, host, v, now);
            && (v.menu != GlueChat ==> ActivateStart !in r.acts)
            && (!IsCreateScreen(v.menu) ==> r.next.autoMapTryCount == e.autoMapTryCount)
            && (IsCreateScreen(v.menu) ==>
                  r.next.autoMapTryCount == e.autoMapTryCount + (if e.lastMapGen != "" && GluPOk in v.dialogs then 1 else 0))
            && (v.menu != GlueChat ==> r.next.actRaceSel == e.actRaceSel && r.next.actStartedGame == e.actStartedGame)
  {
    if v.menu == GlueChat {
    } else if IsCreateScreen(v.menu) {
      assert Dispatch(e, host, v, now) == CreateFrame(e, host, v, now);
    } else if v.menu == GlueConnect {
      assert Dispatch(e, host, v, now) == ConnectFrame(e, v);
    } else if v.menu == GlueGameSelect {
      assert Dispatch(e, host, v, now) == GameSelectFrame(e, v, now);
      GameSelectEffect(e, v, now);
    } else {
      assert Dispatch(e, host, v, now) == Step(e, SimpleScreenActions(e, v));
    }
  }

  /** One poll of the menu. */
  function OnMenuFrame(e: Engine, host: Host, v: View, now: nat): (r: Step)
    requires e.cfg.Valid() && WellFormed(v)
    ensures r.next.cfg == e.cfg && r.next.maps == e.maps
  {
    var e0 := e.(inGame := false);
    if Inert(e) then Step(e0, [])
    else
      var e1 := if v.menu != GlueChat then e0.(actRaceSel := false, actStartedGame := false) else e0;
      Dispatch(e1, host, v, now)
  }

  /** A poll leaves the game flag false. An inert engine writes nothing and
      keeps its state; the retry budget grows by one exactly on an error in
      the create screen; outside the lobby both sticky flags are cleared and
      nothing is started; in the lobby the poll is the lobby frame. */
  lemma FrameEffect(e: Engine, host: Host, v: View, now: nat)
    requires e.cfg.Valid() && WellFormed(v)
    ensures var r := OnMenuFrame(e, host, v, now);
            && !r.next.inGame
            && (Inert(e) ==> r == Step(e.(inGame := false), []))
            && r.next.autoMapTryCount == e.autoMapTryCount + (if RetryFrame(e, v) then 1 else 0)
            && (!Inert(e) && v.menu != GlueChat ==> !r.next.actRaceSel && !r.next.actStartedGame)
            && (v.menu != GlueChat ==> ActivateStart !in r.acts)
            && (!Inert(e) && v.menu == GlueChat ==> r == ChatFrame(e.(inGame := false), host, v, now))
  {
    if !Inert(e) {
      var e0 := e.(inGame := false);
      var e1 := if v.menu != GlueChat then e0.(actRaceSel := false, actStartedGame := false) else e0;
      DispatchEffect(e1, host, v, now);
    }
  }

  /** A poll activates the start control at most once, exactly when the
      lobby allows it; the start flag records a start until the lobby is
      left or an error dialog appears. */
  lemma FrameStart(e: Engine, host: Host, v: View, now: nat)
    requires e.cfg.Valid() && WellFormed(v)
    ensures var r := OnMenuFrame(e, host, v, now);
            && Starts(r.acts) <= 1
            && (ActivateStart in r.acts <==> StartFires(e, v, now))
            && r.next.actStartedGame ==
                 if Inert(e) then e.actStartedGame
                 else v.menu == GlueChat && GluPOk !in v.dialogs && (e.actStartedGame || StartAllowed(e, v, now))
  {
    if !Inert(e) {
      if v.menu == GlueChat {
        LobbyFrameStart(e, host, v, now);
      } else {
        OtherFrameStart(e, host, v, now);
      }
    }
  }

  /** FrameStart in the lobby: the poll is the lobby frame. */
  lemma LobbyFrameStart(e: Engine, host: Host, v: View, now: nat)
    requires e.cfg.Valid() && WellFormed(v) && !Inert(e) && v.menu == GlueChat
    ensures var r := OnMenuFrame(e, host, v, now);
            && Starts(r.acts) <= 1
            && (ActivateStart in r.acts <==> GluPOk !in v.dialogs && StartAllowed(e, v, now))
            && r.next.actStartedGame == (GluPOk !in v.dialogs && (e.actStartedGame || StartAllowed(e, v, now)))
  {
    var e0 := e.(inGame := false);
    assert OnMenuFrame(e, host, v, now) == ChatFrame(e0, host, v, now);
    ChatStart(e0, host, v, now);
    assert StartAllowed(e0, v, now) == StartAllowed(e, v, now);
  }

  /** FrameStart outside the lobby: nothing is started and the flag is cleared. */
  lemma OtherFrameStart(e: Engine, host: Host, v: View, now: nat)
    requires e.cfg.Valid() && WellFormed(v) && !Inert(e) && v.menu != GlueChat
    ensures var r := OnMenuFrame(e, host, v, now);
            Starts(r.acts) == 0 && !r.next.actStartedGame
  {
    var e1 := e.(inGame := false, actRaceSel := false, actStartedGame := false);
    DispatchEffect(e1, host, v, now);
    assert OnMenuFrame(e, host, v, now) == Dispatch(e1, host, v, now);
    assert multiset(Dispatch(e1, host, v, now).acts)[ActivateStart] == 0;
  }

  // ------------------------------------------------------- runs of frames

  /** A poll: what the host showed, and when. */
  datatype Tick = Tick(view: View, now: nat)

  predicate AllWellFormed(ticks: seq<Tick>) {
    forall i :: 0 <= i < |ticks| ==> WellFormed(ticks[i].view)
  }

  /** A run of polls: the final state and every write, in order. */
  function Run(e: Engine, host: Host, ticks: seq<Tick>): (r: Step)
    requires e.cfg.Valid() && AllWellFormed(ticks)
    ensures r.next.cfg == e.cfg && r.next.maps == e.maps
    decreases |ticks|
  {
    if ticks == [] then Step(e, [])
    else
      var s := OnMenuFrame(e, host, ticks[0].view, ticks[0].now);
      var rest := Run(s.next, host, ticks[1..]);
      Step(rest.next, s.acts + rest.acts)
  }
}

=== FILE: properties.dfy ===
/** Properties of runs of menu polls: what the auto-menu promises over many
    frames, proved from the per-frame facts of MenuSpec. */
module Properties {
  import opened Types
  import opened Config
  import opened MenuSpec

  /** The tail of a well-formed run is well formed. */
  lemma TailWellFormed(ticks: seq<Tick>)
    requires AllWellFormed(ticks) && ticks != []
    ensures WellFormed(ticks[0].view) && AllWellFormed(ticks[1..])
  {
    forall i | 0 <= i < |ticks[1..]| ensures WellFormed(ticks[1..][i].view) {
      assert ticks[1..][i] == ticks[i + 1];
    }
  }

  /** An inert engine (mode off or empty, or the retry budget spent) stays
      inert for the whole run: it writes nothing, and only the in-game flag
      is cleared. */
  lemma {:induction false} InertRunIsSilent(e: Engine, host: Host, ticks: seq<Tick>)
    requires e.cfg.Valid() && AllWellFormed(ticks) && Inert(e)
    ensures Run(e, host, ticks).acts == []
    ensures Run(e, host, ticks).next == if ticks == [] then e else e.(inGame := false)
    decreases |ticks|
  {
    if ticks != [] {
      TailWellFormed(ticks);
      var s := OnMenuFrame(e, host, ticks[0].view, ticks[0].now);
      FrameEffect(e, host, ticks[0].view, ticks[0].now);
      InertRunIsSilent(s.next, host, ticks[1..]);
    }
  }

  /** The retry count never goes down, and it grows by at most one per poll. */
  lemma {:induction false} RetryCountGrows(e: Engine, host: Host, ticks: seq<Tick>)
    requires e.cfg.Valid() && AllWellFormed(ticks)
    ensures e.autoMapTryCount <= Run(e, host, ticks).next.autoMapTryCount <= e.autoMapTryCount + |ticks|
    decreases |ticks|
  {
    if ticks != [] {
      TailWellFormed(ticks);
      var s := OnMenuFrame(e, host, ticks[0].view, ticks[0].now);
      FrameEffect(e, host, ticks[0].view, ticks[0].now);
      RetryCountGrows(s.next, host, ticks[1..]);
    }
  }

  /** The retry budget: a count that starts within the ceiling plus one
      never passes it, since a retry is only taken while the count is
      still within the ceiling. Hence at most RetryCeiling + 1 maps are
      tried in all. */
  lemma {:induction false} RetryBudget(e: Engine, host: Host, ticks: seq<Tick>)
    requires e.cfg.Valid() && AllWellFormed(ticks)
    requires e.autoMapTryCount <= RetryCeiling + 1
    ensures Run(e, host, ticks).next.autoMapTryCount <= RetryCeiling + 1
    decreases |ticks|
  {
    if ticks != [] {
      TailWellFormed(ticks);
      var s := OnMenuFrame(e, host, ticks[0].view, ticks[0].now);
      FrameEffect(e, host, ticks[0].view, ticks[0].now);
      RetryBudget(s.next, host, ticks[1..]);
    }
  }

  /** Every poll of the run shows the lobby without an error dialog. */
  predicate StaysInLobby(ticks: seq<Tick>) {
    forall i :: 0 <= i < |ticks| ==> ticks[i].view.menu == GlueChat && GluPOk !in ticks[i].view.dialogs
  }

  /** While the lobby stays up without an error, the game is started at most
      once, and not at all when a start was already recorded. */
  lemma {:induction false} StartAtMostOnce(e: Engine, host: Host, ticks: seq<Tick>)
    requires e.cfg.Valid() && AllWellFormed(ticks) && StaysInLobby(ticks)
    ensures Starts(Run(e, host, ticks).acts) <= if e.actStartedGame then 0 else 1
    decreases |ticks|
  {
    if ticks != [] {
      TailWellFormed(ticks);
      var t := ticks[0];
      var s := OnMenuFrame(e, host, t.view, t.now);
      FrameStart(e, host, t.view, t.now);
      assert StaysInLobby(ticks[1..]) by {
        forall i | 0 <= i < |ticks[1..]|
          ensures ticks[1..][i].view.menu == GlueChat && GluPOk !in ticks[1..][i].view.dialogs
        {
          assert ticks[1..][i] == ticks[i + 1];
        }
      }
      StartAtMostOnce(s.next, host, ticks[1..]);
      var rest := Run(s.next, host, ticks[1..]);
      assert Run(e, host, ticks).acts == s.acts + rest.acts;
      assert Starts(s.acts + rest.acts) == Starts(s.acts) + Starts(rest.acts);
    }
  }
}

=== FILE: races.dfy ===
/** Race resolution and the race-change primitive (GameMenu.cpp, getMenuRace
    and _changeRace). */
module Races {
  import opened Types
  import opened Config

  /** The composite tokens that name a pair of races to choose from. */
  predicate IsComposite(token: string) {
    token == "RANDOMTP" || token == "RANDOMTZ" || token == "RANDOMPZ"
  }

  /** Race `r` is one of the pair named by the composite token. */
  predicate InPair(token: string, r: Race) {
    || (token == "RANDOMTP" && (r == Terran || r == Protoss))
    || (token == "RANDOMTZ" && (r == Terran || r == Zerg))
    || (token == "RANDOMPZ" && (r == Protoss || r == Zerg))
  }

  /** The race a configured token resolves to. `coin` is the draw
      rand() % 2 == 0, taken afresh by every call; any other token goes to
      the host's name lookup `raceOf`. */
  function MenuRace(token: string, coin: bool, raceOf: string -> Race): (r: Race)
    ensures IsComposite(token) ==> InPair(token, r)
    ensures !IsComposite(token) ==> r == raceOf(token)
    ensures IsComposite(token) ==> r != RaceNone && r != RaceUnknown
  {
    if token == "RANDOMTP" then (if coin then Terran else Protoss)
    else if token == "RANDOMTZ" then (if coin then Terran else Zerg)
    else if token == "RANDOMPZ" then (if coin then Protoss else Zerg)
    else raceOf(token)
  }

  /** The lobby already shows an acceptable race: the one resolved, or either
      race of a configured composite token. */
  predicate RaceConfirmed(token: string, current: Race, resolved: Race) {
    current == resolved || InPair(token, current)
  }

  /** A lookup sentinel: never written to any slot. */
  predicate IsSentinel(r: Race) { r == RaceUnknown || r == RaceNone }

  /** A byte of a control's text read as the host compiler's `char`, which
      is signed: bytes from 0x80 up are negative. */
  function SignedChar(c: char): (r: int)
    ensures -0x80 <= r < 0x80
    ensures c as int < 0x80 ==> r == c as int
    ensures 0x80 <= c as int < 0x100 ==> r == c as int - 0x100
  {
    (c as int + 0x80) % 0x100 - 0x80
  }

  /** The countdown control shows a countdown below 2: its text is non-empty
      (a leading NUL byte ends it at once) and its first byte, as a signed
      `char`, is below '2'. Both tests read the first character's low byte. */
  predicate CountdownRunning(text: string) {
    |text| > 0 && SignedChar(text[0]) != 0 && SignedChar(text[0]) < '2' as int
  }

  /** A countdown text whose first byte is 0x80 or above counts as below 2,
      one whose first byte is an ASCII digit from '2' up does not, and one
      that starts with a NUL byte is empty. */
  lemma CountdownSignedness(text: string)
    requires |text| > 0
    ensures 0x80 <= text[0] as int < 0x100 ==> CountdownRunning(text)
    ensures '2' <= text[0] <= '9' ==> !CountdownRunning(text)
    ensures 1 <= text[0] as int && text[0] < '2' ==> CountdownRunning(text)
    ensures text[0] as int == 0 ==> !CountdownRunning(text)
    ensures text[0] as int % 0x100 == 0 ==> !CountdownRunning(text)
  {
  }

  /** The Create dialog's race control for `slot`: the slot clamped to [0, 7]. */
  function SlotControl(slot: int): (s: int)
    ensures 0 <= s <= 7
    ensures 0 <= slot <= 7 ==> s == slot
    ensures slot < 0 ==> s == 0
    ensures 7 < slot ==> s == 7
  {
    Clamp(slot, 0, 7)
  }

  /** The race control of slot `s` exists and shows a race other than `race`. */
  predicate SlotShowsOther(v: View, s: int, race: Race) {
    s in v.slotRace && v.slotRace[s] != race
  }

  /** The writes of a race change for `slot`. With the Create dialog up, a
      direct write of the slot's race control, only when it shows another
      race; otherwise, in the Chat dialog, a queued command unless the
      countdown is absent or already below 2. */
  function ChangeRace(v: View, slot: int, race: Race): (acts: seq<Action>)
    ensures |acts| <= 1
    ensures IsSentinel(race) ==> acts == []
    ensures Create in v.dialogs ==>
              (acts != [] <==> !IsSentinel(race) && SlotShowsOther(v, SlotControl(slot), race))
    ensures Create in v.dialogs && acts != [] ==> acts == [SetSlotRace(SlotControl(slot), race)]
    ensures Create !in v.dialogs ==>
              acts == (if !IsSentinel(race) && Chat in v.dialogs && v.countdown.Some? &&
                          !CountdownRunning(v.countdown.value)
                       then [QueueRaceChange(slot, race)] else [])
    ensures ActivateStart !in acts
  {
    if IsSentinel(race) then []
    else if Create in v.dialogs then
      var s := SlotControl(slot);
      if s in v.slotRace && v.slotRace[s] != race then [SetSlotRace(s, race)] else []
    else if Chat !in v.dialogs then []
    else match v.countdown
      case None => []
      case Some(text) => if CountdownRunning(text) then [] else [QueueRaceChange(slot, race)]
  }

  /** The view after the direct race writes in `acts` took effect. */
  function ApplyWrites(v: View, acts: seq<Action>): (w: View)
    ensures w.dialogs == v.dialogs && w.countdown == v.countdown
    decreases |acts|
  {
    if acts == [] then v
    else
      var w := if acts[0].SetSlotRace? then v.(slotRace := v.slotRace[acts[0].slot := acts[0].race]) else v;
      ApplyWrites(w, acts[1..])
  }

  /** With the Create dialog up, a race change repeated on the view it left
      behind writes nothing. */
  lemma ChangeRaceIdempotent(v: View, slot: int, race: Race)
    requires Create in v.dialogs
    ensures ChangeRace(ApplyWrites(v, ChangeRace(v, slot, race)), slot, race) == []
  {
    var acts := ChangeRace(v, slot, race);
    if acts != [] {
      var w := v.(slotRace := v.slotRace[acts[0].slot := race]);
      assert ApplyWrites(w, acts[1..]) == w;
    }
  }
}

=== FILE: types.dfy ===
/** Values shared by the auto-menu model: races, dialogs, menu screens, the
    per-frame observation of the host's widget tree and the writes the engine
    issues against it. */
module Types {

  datatype Option<T> = None | Some(value: T)

  /** A race as the engine compares it. `RaceNone` and `RaceUnknown` are the
      sentinels a name lookup returns for "no race" and "unrecognised name".
      `OtherRace(id)` stands only for an id that none of the named races or
      sentinels carries, so two races are equal exactly when their ids are. */
  datatype Race = Zerg | Terran | Protoss | Random | OtherRace(id: nat) | RaceNone | RaceUnknown

  /** A game type as the name lookup returns it; only `GameTypeValue` is ever
      written to the game-type dropdown. */
  datatype GameType = GameTypeNone | GameTypeUnknown | GameTypeValue(id: int)

  /** The type of a lobby slot, as far as the slot counters distinguish it.
      `OtherPlayerType(id)` stands only for an id other than those of
      `Player` and `EitherPreferHuman`. */
  datatype PlayerType = Player | EitherPreferHuman | OtherPlayerType(id: nat)

  /** One of the eight playable lobby slots: its type, its download progress
      and the race currently shown for it. */
  datatype Slot = Slot(kind: PlayerType, download: int, race: Race)

  /** The screen the host is showing (its glue mode). `GlueOther(code)`
      stands only for a code that none of the named screens carries. */
  datatype Glue =
    | GlueMainMenu | GlueExCampaign | GlueCampaign
    | GlueCreate | GlueCreateMulti | GlueConnect | GlueGameSelect | GlueChat | GlueLogin
    | GlueScoreZDefeat | GlueScoreZVictory | GlueScoreTDefeat
    | GlueScoreTVictory | GlueScorePDefeat | GlueScorePVictory
    | GlueReadyT | GlueReadyZ | GlueReadyP
    | GlueOther(code: int)

  /** The named dialogs the engine looks up in the host's widget tree. */
  datatype Dialog =
    | TitleDlg | MainMenu | Delete | RaceSelection | Create | GluPOk
    | ConnSel | GameSel | Chat | Login | GluPEdit | End | ReadyZ | TerranRR

  /** A write the engine performs on the host: a UI poke addressed by dialog
      and control index, or a command queued to the host's simulation. */
  datatype Action =
    | Press(dlg: Dialog, ctrl: int)                      // press a control's hotkey
    | SelectValue(dlg: Dialog, ctrl: int, value: int)    // select a dropdown entry by value
    | SetSlotRace(slot: int, race: Race)                 // Create dialog, race control 28 + slot
    | SelectIndex(dlg: Dialog, ctrl: int, index: int)    // select a dropdown entry by index
    | SelectString(dlg: Dialog, ctrl: int, text: string) // select a list entry by its text
    | SetText(dlg: Dialog, ctrl: int, text: string)      // overwrite an edit field
    | ActivateStart                                      // activate the Chat dialog's start control 7
    | QueueRaceChange(slot: int, race: Race)             // queue a "request race change" command
    | RewriteMapList(entryName: string, fullPath: string, folder: string)
      // point every map-list entry at one file and set the current map folder

  /** What one poll of the host shows the engine. */
  datatype View = View(
    menu: Glue,
    dialogs: set<Dialog>,          // the named dialogs that are present
    gameTypeValue: int,            // Create control 17: selected value
    slotRace: map<int, Race>,      // Create controls 28..35 by slot: selected value (absent control: no key)
    slotSelection: seq<int>,       // Create controls 21..27: selected index
    lanVisible: bool,              // ConnSel control 5 is visible
    lanListed: bool,               // ConnSel control 5 lists the configured LAN mode
    gameListed: bool,              // GameSel control 5 lists the configured game name
    countdown: Option<string>,     // Chat control 24: its text, None when the control is absent
    startDisabled: bool,           // Chat control 7 is disabled
    lobby: seq<Slot>,              // the eight playable player slots
    currentPlayer: int,            // this client's slot id
    instance: nat,                 // ordinal of this automation instance on the machine
    coins: seq<bool>,              // one free draw per slot k: rand() % 2 == 0 if slot k's token is composite
    mapDraw: nat                   // rand() for a map re-selection during the frame
  )

  /** The fixed table sizes of the host. */
  predicate WellFormed(v: View) {
    |v.slotSelection| == 7 && |v.lobby| == 8 && |v.coins| == 8
  }

  /** Number of start activations in a batch of actions. */
  function Starts(acts: seq<Action>): nat {
    multiset(acts)[ActivateStart]
  }

  /** Concatenation is associative; stated once so that proofs about
      batches of actions can regroup them. */
  lemma AppendAssoc<T>(a: seq<T>, b: seq<T>, c: seq<T>)
    ensures a + (b + c) == (a + b) + c
  {
  }
}
